=== FILE: README.md ===
# Video session orchestration, modelled in Dafny

This project models the part of the siempre video stream library that runs one
WebRTC session per remote participant:

- `StreamManager.js`: the per-participant state machine. Its states are NotTracking,
  Resetting, Initializing, Streaming and Broken. It holds the outbound local
  stream, the queue of calls made before that stream is ready, the buffered
  signals, the initializing and broken timers, and the per-id and global mute
  switches.
- `Signalling.js`: the signalling-server connection. It queues public calls
  until it has identified itself, flushes them after `identify`, keeps itself
  alive with a ping/pong heartbeat, and reopens the socket after every close.

Both are written as pure functions over immutable records:

- `wrappers.dfy` holds `Option` and `Result`.
- `string_order.dfy` holds `StringOrder.LexLess`, JavaScript's `<` on strings.
  It decides which side initiates.
- `signalling.dfy` is module `Signalling`. A `Channel` record holds the socket
  life-cycle, the queue, the connected flag, the heartbeat and reconnect timers
  as armed flags, the outstanding token requests, and `wire`, every message
  handed to a socket, in order, each marked delivered or discarded.
- `stream_manager.dfy` is module `StreamManager`:
  - A `Manager` record keeps one `Session` per id. A session holds the id's
    state, its live peer handle, its inbound and outbound streams, its two
    timers, its buffered signal and its two intents.
  - Fired events (`streamUpdate`, `streamIn`, `streamOut`, `mutedVideo`,
    `mutedAudio`) and signals handed to a peer are appended to `log`.
  - Each peer object is a `Handle`: a number issued fresh by every
    `_initializing`. A peer callback carries its handle, and only the live
    handle's listeners act.
  - Promise resolutions, timer firings, socket callbacks and peer and track
    events are inputs (`StreamManager.Input`, `Signalling.Input`).
- `stream_manager_proofs.dfy` is module `StreamManagerProofs`. It holds the
  invariant every reachable manager keeps and the properties of the calls.

## Model

| member | source | states |
|---|---|---|
| Signalling.Create | Signalling.js:7-21 | A new channel has a connecting socket for its uuid, nothing queued or handed to a socket, is not connected, and counts the heartbeat as acknowledged. |
| Signalling.RequestOffer | Signalling.js:86-99 | `request_offer` to `id` is queued while not connected. Otherwise it is handed to the socket and arrives only if the socket is open; on a connecting socket `send` throws and nothing changes. Nothing else about the channel changes. |
| Signalling.AssertControl | Signalling.js:101-111 | `assert_control` is queued while not connected. Otherwise it is handed to the socket and arrives only if the socket is open; on a connecting socket `send` throws and nothing changes. Nothing else about the channel changes. |
| Signalling.Signal | Signalling.js:113-127 | `signal` with `to` and `data` is queued while not connected. Otherwise it is handed to the socket and arrives only if the socket is open; on a connecting socket `send` throws and nothing changes. Nothing else about the channel changes. |
| Signalling.OnOpen | Signalling.js:35-44 | An opening socket starts one token request, acknowledges the heartbeat and arms the heartbeat timer, but does not make the channel connected. |
| Signalling.OnToken | Signalling.js:129-147 | The corrected token resolution. On an open socket, `identify` goes out first, then every queued message once, in queue order, all delivered; the queue empties and the channel becomes connected. On any other socket only the token request is used up: the queue is kept and the channel stays as it was. |
| Signalling.OnTokenAsWritten | Signalling.js:129-147 | The token resolution as written. On an open socket it is the corrected one. On a closing or closed socket, `identify` and the whole queue are handed over and discarded, yet the queue empties and the channel counts as connected. |
| Signalling.OnReceive | Signalling.js:45-65 | Only the heartbeat acknowledgement can change; afterwards it is set exactly when it was set before or a `pong` reached an open socket. A message is re-emitted exactly for `signal` and `request_offer` on an open socket, with the same sender, kind and payload; a socket that is not open dispatches no messages. |
| Signalling.OnClose | Signalling.js:66-74 | A close disconnects the channel, clears the heartbeat and schedules one reconnect. The queue is kept. |
| Signalling.OnClosingStarted | Signalling.js:66-74 | When the server begins the closing handshake, an open socket becomes closing and nothing else changes: the close listener runs only later, on the `close` event. |
| Signalling.OnHeartbeat | Signalling.js:149-166 | An unacknowledged heartbeat closes the socket and stops beating. Otherwise exactly one ping is handed to the socket and the acknowledgement is cleared. |
| Signalling.OnReconnect | Signalling.js:70-73 | The reconnect timer opens a new socket for the same uuid and keeps the queue. |
| Signalling.Destroy | Signalling.js:23-31 | The corrected destroy: listeners gone, and neither the heartbeat nor the reconnect is armed. |
| Signalling.DestroyAsWritten | Signalling.js:23-31 | The destroy as written clears a timer field that is never set, so an armed reconnect stays armed. |
| Signalling.StepPreservesValid | Signalling.js:86-147 | Every callback and call keeps the channel invariant: nothing queued while connected, a connected channel never on a connecting or closed socket, only public-call messages queued, the heartbeat armed only on an open or closing socket, and the reconnect armed exactly when closed. |
| Signalling.SendConserves | Signalling.js:94-98 | A public call adds its message exactly once to what was handed to a socket followed by what is queued. |
| Signalling.ReactConserves | Signalling.js:129-147 | No callback, including the identify flush and the ping, loses from the traffic, duplicates or reorders a public-call message. |
| Signalling.StepConservesRequests | Signalling.js:86-147 | One step adds exactly the public call's message to what was handed to a socket followed by what is queued. |
| Signalling.RunConservesRequests | Signalling.js:86-147 | Over any run with closes and reconnects, the public-call messages handed to a socket (delivered or discarded), followed by those still queued, are exactly the calls made, in call order. |
| Signalling.SendTraffic | Signalling.js:94-98 | On a valid channel, a public call appends its message to everything handed out or queued before it. |
| Signalling.TokenConserves | Signalling.js:131-145 | The identify flush hands over the queued public-call messages in queue order, adding none and dropping none. |
| Signalling.HeartbeatConserves | Signalling.js:149-166 | A heartbeat adds no public-call message to the traffic. |
| Signalling.StepLosesOnlyWhileClosing | Signalling.js:94-98 | A step only appends to the hand-offs, and what it appends is discarded only if the socket was closing, whichever side began the handshake, or destroyed. |
| Signalling.RunLosesOnlyWhileClosing | Signalling.js:86-166 | Over a run in which the socket is never closing or destroyed, every hand-off is made to an open socket. |
| Signalling.ServerClosingDiscards | Signalling.js:94-98 | After the server begins the closing handshake, a connected channel still hands a call to the socket, which discards it; the channel stays connected with nothing queued. |
| Signalling.OnlyTokenConnects | Signalling.js:129-147 | Only a token resolution turns a disconnected channel into a connected one. |
| Signalling.MissedHeartbeatCloses | Signalling.js:149-154 | Two heartbeat firings with no pong between them leave the socket closing after at most one ping, with the heartbeat disarmed. |
| Signalling.CloseThenReconnect | Signalling.js:66-74 | A close and its reconnect give a connecting socket for the same uuid. Queued messages are kept and the channel stays disconnected. |
| Signalling.DestroyIsFinal | Signalling.js:23-31 | After the corrected destroy, no sequence of callbacks brings a socket back. |
| Signalling.DestroyAsWrittenReconnects | Signalling.js:23-31 | The destroy as written, on a channel whose socket just closed, is undone by the pending reconnect. |
| Signalling.StaleTokenLosesQueue | Signalling.js:129-147 | With the token resolution as written, a request queued before the socket closes is discarded by the stale token. After the reconnect the channel counts as connected on a connecting socket, and the next call leaves no trace. |
| Signalling.StaleTokenKeepsQueue | Signalling.js:129-147 | With the corrected token resolution, the same request survives the close and the reconnect, and goes out after the next identify on the new socket. |
| StringOrder.LexLessConnected | StreamManager.js:257 | Of two distinct ids one sorts before the other under JavaScript's string `<`. |
| StringOrder.LexLessAsymmetric | StreamManager.js:257 | No two ids each sort before the other. |
| StreamManager.Create | StreamManager.js:20-58 | A new manager is uninitialized and not ready, has no channel, has every id NotTracking, and has both global switches on. |
| StreamManager.StateOf | StreamManager.js:41-47 | An id that was never assigned a state reads as NotTracking. |
| StreamManager.ClearTimeouts | StreamManager.js:399-402 | Neither timer stays armed, and nothing else about the session changes. |
| StreamManager.ResetSession | StreamManager.js:372-397 | A reset leaves the state Resetting, with no timer, peer handle or inbound stream. In a browser it also drops the outbound stream. The buffered signal and the intents survive. |
| StreamManager.InitializingSession | StreamManager.js:245-315 | An initialized session is Initializing, with the given new handle and only the initializing timer armed. Its outbound stream copies the local stream's track switches, it has no inbound stream and no buffered signal, and its intents are kept. |
| StreamManager.EnterInitializing | StreamManager.js:245-315 | Without a local stream nothing changes. Otherwise only `id`'s session changes, a new handle is issued and the id is recorded. The events are Resetting, then the buffered signal to the new handle, then Initializing. |
| StreamManager.EnterNotTracking | StreamManager.js:317-322 | A reset that settles in NotTracking, firing Resetting then NotTracking. No other session, handle or channel changes. |
| StreamManager.StreamingSession | StreamManager.js:324-336 | A Streaming session has an inbound stream and no timer. Each outbound track is enabled exactly when that kind's intent and global switch are both on. |
| StreamManager.EnterStreaming | StreamManager.js:324-359 | Fires Streaming, then `streamIn`, and changes only `id`'s session. |
| StreamManager.BrokenSession | StreamManager.js:361-370 | A Broken session has exactly the broken timer armed, and everything else is kept. |
| StreamManager.EnterBroken | StreamManager.js:361-370 | Fires Broken and changes only `id`'s session. |
| StreamManager.MuteSession | StreamManager.js:203-210 | The intent of the kind becomes `!muted`. That kind's outbound tracks become enabled exactly when the intent and the global switch are both on. The other kind is untouched. |
| StreamManager.SetMute | StreamManager.js:220-227 | The per-id mute changes only `id`'s session, as `MuteSession` with the current global switch, and fires nothing. |
| StreamManager.SetMuteAll | StreamManager.js:212-218 | The global switch of the kind becomes `!muted` and the other kind's switch is kept. Every id with an outbound stream ends with that kind's intent and tracks equal to `!muted`, and every id without one is untouched. One `muted*` event fires, and nothing else about the manager changes. |
| StreamManager.Initialize | StreamManager.js:74-134 | The corrected initialize. A second call only fires `streamOut` again, and without capture capability nothing happens. Otherwise it records the local id, creates the channel and starts exactly one capture, and nothing else changes. |
| StreamManager.OnCaptureSucceeded | StreamManager.js:136-158 | A capture result with no capture outstanding changes nothing. What a real result does is stated by `StreamManagerProofs.CaptureFiresStreamOutFirst` and `StreamManagerProofs.ReplayInOrder`. |
| StreamManager.AddVideo | StreamManager.js:165-180 | Before the local stream is ready the call is queued. An id already tracked is left alone. A NotTracking id, once the local stream exists, becomes Initializing with both intents on, a new live peer, and an outbound stream copying the local stream's switches. |
| StreamManager.RemoveVideo | StreamManager.js:182-195 | Before the local stream is ready the call is queued. A NotTracking id is left alone. A tracked id ends NotTracking with both intents off, no peer and no inbound stream, after firing Resetting then NotTracking. |
| StreamManager.AssertControl | StreamManager.js:237-243 | Before the local stream is ready the call is queued; afterwards exactly one `assert_control` goes to the channel and nothing else changes. |
| StreamManager.Buffer | StreamManager.js:106-111 | A buffered signal replaces any older one for that id. Nothing else changes and nothing fires. |
| StreamManager.Forward | StreamManager.js:94-105 | While Initializing, a signal goes to the live handle and only the initializing timer is re-armed. |
| StreamManager.OnServerMessage | StreamManager.js:90-131 | A signal for an Initializing id goes to its live peer and re-arms only the initializing timer. For a NotTracking id it becomes the buffered signal and nothing fires. For a Streaming or Broken id the session restarts with the signal buffered. A `request_offer` restarts only a Streaming or Broken session. |
| StreamManager.OnPeerStream | StreamManager.js:298-301 | The live peer's `stream` makes the session Streaming with an inbound stream, keeping the peer, and fires Streaming then `streamIn`. A stale handle changes nothing. |
| StreamManager.OnPeerClose | StreamManager.js:306-310 | The live peer's `close` restarts the session as Initializing with a new live peer. A stale handle changes nothing. |
| StreamManager.OnPeerSignal | StreamManager.js:302-305 | The live peer's `signal` changes only the channel, through its `signal` call. A stale handle changes nothing. |
| StreamManager.OnTrackMute | StreamManager.js:338-343 | An inbound track `mute` on a Streaming session makes it Broken with only the broken timer armed, keeping the peer, and fires Broken. In any other state nothing changes. |
| StreamManager.OnInitializingTimeout | StreamManager.js:253-256 | A firing initializing timer restarts the session as Initializing with a new live peer and only the initializing timer armed. An unarmed timer changes nothing. |
| StreamManager.OnBrokenTimeout | StreamManager.js:366-369 | A firing broken timer restarts the session as Initializing with a new live peer and only the initializing timer armed. An unarmed timer changes nothing. |
| StreamManager.OnTrackUnmute | StreamManager.js:348-356 | An unmute clears the broken timer in every state. Only a Broken session returns to Streaming and fires. |
| StreamManagerProofs.CreateValid | StreamManager.js:20-58 | A new manager satisfies the invariant. |
| StreamManagerProofs.NeverAssignedIsNotTracking | StreamManager.js:41-47 | With the invariant, an id that was never assigned a state is NotTracking, with no peer, no inbound stream and no timer. (It may still hold a buffered signal, or, for the local id, an outbound stream.) |
| StreamManagerProofs.ChannelCallsValid | Signalling.js:86-127 | The three public calls of the channel keep its invariant. |
| StreamManagerProofs.EnterInitializingValid | StreamManager.js:245-315 | `_initializing` restores the invariant at the id it acts on. |
| StreamManagerProofs.EnterNotTrackingValid | StreamManager.js:317-322 | `_notTracking` restores the invariant at the id it acts on. |
| StreamManagerProofs.EnterStreamingValid | StreamManager.js:324-359 | `_streaming` keeps the invariant for a session holding a live peer. |
| StreamManagerProofs.EnterBrokenValid | StreamManager.js:361-370 | `_broken` keeps the invariant for a Streaming session. |
| StreamManagerProofs.AddVideoValid | StreamManager.js:165-180 | `addVideo` keeps the invariant. |
| StreamManagerProofs.RemoveVideoValid | StreamManager.js:182-195 | `removeVideo` keeps the invariant. |
| StreamManagerProofs.RemoveEachValid | StreamManager.js:197-201 | `removeAll` keeps the invariant. |
| StreamManagerProofs.AssertControlValid | StreamManager.js:237-243 | `assertControl` keeps the invariant. |
| StreamManagerProofs.PerformValid | StreamManager.js:152-156 | Replaying one queued call keeps the invariant. |
| StreamManagerProofs.RunValid | StreamManager.js:152-156 | Replaying any queue keeps the invariant. |
| StreamManagerProofs.SetMuteValid | StreamManager.js:203-210 | The per-id mute keeps the invariant. |
| StreamManagerProofs.SetMuteAllValid | StreamManager.js:212-218 | The `All` mute keeps the invariant. |
| StreamManagerProofs.InitializeValid | StreamManager.js:74-134 | `initialize` keeps the invariant. |
| StreamManagerProofs.OnCaptureSucceededValid | StreamManager.js:136-158 | A successful capture keeps the invariant. |
| StreamManagerProofs.OnLocalTrackEndedValid | StreamManager.js:143-149 | The end of a captured track keeps the invariant. |
| StreamManagerProofs.OnServerMessageValid | StreamManager.js:90-131 | The channel's `message` listener keeps the invariant. |
| StreamManagerProofs.OnServerEventValid | Signalling.js:45-65 | Every channel callback, followed by the manager's listener, keeps the invariant. |
| StreamManagerProofs.PeerEventsValid | StreamManager.js:295-314 | The peer's `stream`, `signal` and `close` events keep the invariant, for live and stale handles alike. |
| StreamManagerProofs.TrackMuteValid | StreamManager.js:338-343 | An inbound track's `mute` keeps the invariant. |
| StreamManagerProofs.TrackUnmuteValid | StreamManager.js:348-356 | An inbound track's `unmute` keeps the invariant. |
| StreamManagerProofs.TimeoutsValid | StreamManager.js:253-256 | The firing of either timer keeps the invariant. |
| StreamManagerProofs.CallPreservesValid | StreamManager.js:165-243 | Every public call keeps the invariant. |
| StreamManagerProofs.EventPreservesValid | StreamManager.js:90-131 | Every channel and peer event keeps the invariant. |
| StreamManagerProofs.LocalEventPreservesValid | StreamManager.js:338-370 | Every track event and timer firing keeps the invariant. |
| StreamManagerProofs.StepPreservesValid | StreamManager.js:245-402 | Every input keeps the invariant. Outside a step no session is Resetting. A session owns a peer exactly while Initializing, Streaming or Broken. Exactly the timer of its state is armed. It has an inbound stream exactly while Streaming or Broken. Only a NotTracking session keeps a buffered signal. |
| StreamManagerProofs.RunInputsValid | StreamManager.js:245-402 | Any run of inputs keeps the invariant. |
| StreamManagerProofs.ReachableValid | StreamManager.js:20-58 | Every manager reachable from the constructor satisfies the invariant. |
| StreamManagerProofs.QueuedWhileNotReady | StreamManager.js:169-173 | Before the local stream is ready, every call only appends itself to the queue, in call order. |
| StreamManagerProofs.RunAppend | StreamManager.js:152-156 | Replaying two queues one after the other is replaying their concatenation. |
| StreamManagerProofs.ReplayInOrder | StreamManager.js:150-157 | Calls made while the capture is outstanding have, once it succeeds, exactly the effect of making them afterwards, in call order. |
| StreamManagerProofs.PerformWhileReady | StreamManager.js:165-243 | Once ready, no call queues anything, and calls only append to the fired events. |
| StreamManagerProofs.RunWhileReady | StreamManager.js:152-157 | A replay on a ready manager leaves it ready, with the queue as it was and the earlier events as a prefix. |
| StreamManagerProofs.CaptureFiresStreamOutFirst | StreamManager.js:150-157 | A successful capture fires `streamOut` before anything a replayed call fires, and leaves the manager ready with an empty queue. |
| StreamManagerProofs.TrackEndedRecaptures | StreamManager.js:143-149 | When a captured track ends on a ready manager, the capture it starts succeeds into the same manager with a fresh local stream, all tracks on, after one more `streamOut`. The capture count is back where it was, and every other session and the channel are untouched. |
| StreamManagerProofs.ExactlyOneInitiator | StreamManager.js:257 | Of two distinct participants exactly one is the initiator. |
| StreamManagerProofs.RequestOfferIffResponder | StreamManager.js:257-261 | `_initializing` adds exactly one `request_offer` to the channel's traffic when this side does not initiate, and none when it does. |
| StreamManagerProofs.OneSideRequestsOffer | StreamManager.js:257-261 | When two participants start a session with each other, exactly one of them asks for an offer. |
| StreamManagerProofs.RemoveVideoSettles | StreamManager.js:182-195 | On a ready manager, `removeVideo` leaves the id NotTracking and every other session as it was. |
| StreamManagerProofs.RemoveEachSettles | StreamManager.js:197-201 | After the removal loop, every listed id and every id that was already NotTracking is NotTracking. |
| StreamManagerProofs.RemoveAllClears | StreamManager.js:197-201 | On a ready manager, `removeAll` leaves every id NotTracking, with no peer, inbound stream or timer. |
| StreamManagerProofs.StreamingTracksAgree | StreamManager.js:330-336 | After `_streaming`, the outbound tracks equal the intents combined with the global switches. |
| StreamManagerProofs.SetMuteKeepsTracksAgreeing | StreamManager.js:203-210 | The per-id mute keeps that id's tracks equal to its intents combined with the switches. |
| StreamManagerProofs.SetMuteAllKeepsTracksAgreeing | StreamManager.js:212-218 | The `All` mute keeps each outbound stream that equalled its intents combined with the switches equal to them under the new switches. |
| StreamManagerProofs.GlobalMuteReachesNewSessions | StreamManager.js:212-218 | On a manager that has never tracked its own id, after a global mute of a kind, a session that `addVideo` starts sends that kind's tracks disabled, since its outbound stream is a clone of the local one. |
| StreamManagerProofs.MuteEachAt | StreamManager.js:214-216 | Making the per-id call for each of a list of distinct ids mutes exactly the listed ids and keeps the global switch. |
| StreamManagerProofs.SetMuteAllIsLoop | StreamManager.js:212-218 | Switching the global flag and then making the per-id call for each id with an outbound stream gives every session the same value as `SetMuteAll`. |
| StreamManagerProofs.SignalNeverLost | StreamManager.js:90-119 | The latest signal from the other side is kept or delivered. While Initializing it goes to the live peer. While NotTracking it becomes the buffered signal, replacing any older one. While Streaming or Broken the session restarts and the new peer receives it between Resetting and Initializing. |
| StreamManagerProofs.RequestOfferRestartsOnlyReceiving | StreamManager.js:120-130 | A `request_offer` restarts a Streaming or Broken session with a new live peer, firing Resetting then Initializing, and changes nothing in any other state. |
| StreamManagerProofs.LatestBufferedSignalWins | StreamManager.js:287-291 | Of two signals buffered while NotTracking, only the later reaches the peer that `addVideo` creates, before Initializing fires. |
| StreamManagerProofs.RestartRetiresHandle | StreamManager.js:372-381 | After a restart the old peer handle is no longer live, so its late `stream`, `close` and `signal` events change nothing. |
| StreamManagerProofs.InitializingTimeoutRestarts | StreamManager.js:253-256 | A firing initializing timer restarts the session with a new live peer and only the initializing timer armed, retiring the old peer. |
| StreamManagerProofs.BrokenTimeoutRestarts | StreamManager.js:366-369 | A firing broken timer restarts the session with a new live peer and only the initializing timer armed, retiring the old peer. |
| StreamManagerProofs.TrackMuteBreaksOnlyStreaming | StreamManager.js:338-343 | An inbound track `mute` breaks only a Streaming session. It fires Broken, keeps the peer and inbound stream, and leaves exactly the broken timer armed. In any other state it changes nothing. |
| StreamManagerProofs.MuteThenUnmuteRecovers | StreamManager.js:338-356 | An inbound track `mute` then `unmute` leaves a Streaming session exactly as it was, after firing Broken then Streaming. |
| StreamManagerProofs.AddVideoStarts | StreamManager.js:165-180 | On a ready manager, `addVideo` of a NotTracking id starts a session:<br>- both intents on;<br>- Initializing with its timer armed and a new live peer;<br>- an outbound stream copying the local stream's switches;<br>- the buffered signal delivered;<br>- `request_offer` sent exactly when this side does not initiate;<br>- every other session untouched. |
| StreamManagerProofs.AddVideoIdempotent | StreamManager.js:174-176 | A second `addVideo` for the same id changes nothing. |
| StreamManagerProofs.RemoveVideoStops | StreamManager.js:182-195 | On a ready manager, `removeVideo` of a tracked id ends the session:<br>- intents off;<br>- NotTracking with no peer, inbound stream or timer;<br>- the outbound stream dropped in a browser;<br>- Resetting then NotTracking fired;<br>- every other session untouched. |
| StreamManagerProofs.RemoveVideoIdempotent | StreamManager.js:189-191 | A second `removeVideo` for the same id changes nothing. |
| StreamManagerProofs.SecondInitializeThrows | StreamManager.js:75-78 | On an initialized manager, the initialize as written throws a ReferenceError, where the corrected one only fires `streamOut` again. |

## Left out

- Parsing JSON and `socket.send` are reduced to the constructors of `Signalling.Outbound`, `Signalling.Inbound` and `Signalling.Message`.
- A message handed to a socket is recorded as delivered exactly when the socket is open, following the `send()` method of the WHATWG WebSocket standard; `bufferedAmount` and partial delivery are not modelled.
- Identity tokens (`getIdToken`) and local media capture (`getUserMedia`) are requests whose answers arrive as inputs; the auth object and the media devices are not modelled.
- A failed capture is retried at once, which in the model is a no-op input: the outstanding count is unchanged.
- `userMediaConfig` is not modelled; it only passes through to the capture request.
- The simple-peer object is reduced to a fresh handle. Its ICE configuration, SDP content and `connect`/`error` events (which only log) are not modelled.
- `StreamManager.LocalTracks`: the local stream is read from the local id's own session. In a browser, `addVideo` of the local id itself breaks this: `_reset` of that id stops and forgets `streamsOut[myId]`, which is the local stream object itself (StreamManager.js:141-142, 388-395), and `_initializing` then clones the stopped stream (StreamManager.js:264). From then on every new session clones a stopped stream, and the `All` mute calls reach only the clone, while the model keeps treating the local id's session as the live local stream. `StreamManagerProofs.GlobalMuteReachesNewSessions` is therefore stated only for a manager that has never tracked its own id. On hosts without `navigator.mediaDevices`, every id shares the one local stream object, and that sharing is not modelled.
- Tracks of an earlier inbound stream keep their `mute`/`unmute` listeners after a restart. The model delivers those events by id, as the listeners do, but does not track which stream a track belonged to.
- The inbound track `ended` listener only logs and is not modelled.
- A `peer.signal` that throws is caught and the signal dropped (StreamManager.js:100-105). The model's live peer never throws.
- The `reload` message calls `window.location.reload()`. It is received and dropped.
- Logging and the `EventProvider` listener registry are left out. Fired events are appended to `log` instead.
- Timer durations (heartbeat 30000 ms and reconnect 5000 ms, Signalling.js:170-171; initializing and broken 30000 ms, StreamManager.js:405-406) are not modelled: a timer is an armed flag and its firing an input, which may come at any point.
- A socket error only logs (Signalling.js:75-78) and is not modelled; the closing handshake and the close event it leads to are inputs.
- `StreamManager.destroy` (StreamManager.js:60-72) is not part of this model.
- `StreamManager.OnServerEvent`: the manager runs over the corrected token resolution, `Signalling.OnToken`, so the invariant of `StreamManagerProofs` and every property proved from it assume that correction. With the resolution as written, a stale token can leave the channel connected on a connecting socket. The `requestOffer` inside `_initializing` (StreamManager.js:260) then throws after `_reset` and the timer arm (StreamManager.js:252-256), which leaves the session Resetting with the initializing timer armed and no peer. A throw during the replay of queued calls (StreamManager.js:152-156) reaches the capture's `catch` (StreamManager.js:159-162) instead, which captures again and later replays the never-cleared queue a second time. The model does not carry these exceptions.
- `Object.keys` lists integer-like keys first. `removeAll` and the `All` mute calls are modelled in insertion order.
- `StringOrder.LexLess` compares characters as Dafny `char`s, not as UTF-16 code units.
- `StreamManager.OnCaptureSucceeded`: its own contract is weak. Its replay behaviour is stated by `StreamManagerProofs.ReplayInOrder` and `StreamManagerProofs.CaptureFiresStreamOutFirst`.

## Findings

| source | as written | input that shows it | evidently intended | confidence | as-written member | corrected member |
|---|---|---|---|---|---|---|
| Signalling.js:23-31 | `destroy` clears `reconnectTimeout`, but the close listener stores the timer in `reconnectTimer` (line 70). | A socket that has closed is destroyed, and the pending reconnect then opens a new socket with listeners. | `destroy` clears the reconnect timer, so nothing reconnects. | not executed | Signalling.DestroyAsWritten (Signalling.DestroyAsWrittenReconnects) | Signalling.Destroy (Signalling.DestroyIsFinal) |
| StreamManager.js:75-78 | A second `initialize` fires `streamOut` with an undeclared identifier `streamOut`. | `initialize` called twice on a host with media devices throws a ReferenceError. | Fire `this.streamOut` and return. | not executed | StreamManager.InitializeAsWritten (StreamManagerProofs.SecondInitializeThrows) | StreamManager.Initialize |
| Signalling.js:129-147 | The token callback sends `identify` and the queue through whatever socket is current, then sets `isConnected`. | A call queued before the first identify, then the socket closes before the token arrives: the stale token discards the queue, and after the reconnect the channel counts as connected on a connecting socket. The next `requestOffer` then throws, and inside `_initializing` (StreamManager.js:252-260) that strands the session in Resetting. | Flush only on an open socket, keeping the queue otherwise. | not executed | Signalling.OnTokenAsWritten (Signalling.StaleTokenLosesQueue) | Signalling.OnToken (Signalling.StaleTokenKeepsQueue, Signalling.RunConservesRequests) |

=== FILE: signalling.dfy ===
/**
 * The signalling-server connection: an authenticated control socket that
 * queues outbound traffic until it has identified itself, keeps itself alive
 * with a ping/pong heartbeat, and reopens itself after every close.
 *
 * The socket, the token promise and the two timers are reduced to flags; their
 * callbacks arrive as `Event`s. Every `socket.send` hand-off is appended to
 * `wire`, tagged with whether the socket could deliver it, so ordering,
 * "exactly once" and loss can be stated on that sequence. A hand-off follows
 * the `send()` method of the WHATWG WebSocket standard: it throws while the
 * socket is connecting, and it is silently discarded once the socket is
 * closing or closed.
 */
module Signalling {
  import opened Wrappers

  type Id = string
  type Payload = string
  type Token = string

  /** Messages written to the socket, one constructor per `event` value. */
  datatype Outbound =
    | IdentifyMsg(token: Token, uuid: string)
    | PingMsg
    | RequestOfferMsg(to: Id)
    | AssertControlMsg
    | SignalMsg(to: Id, data: Payload)

  /** Messages the three public calls produce; only these are ever queued. */
  predicate IsRequest(msg: Outbound) {
    msg.RequestOfferMsg? || msg.AssertControlMsg? || msg.SignalMsg?
  }

  /** Messages read from the socket, by their `event` discriminator. */
  datatype Inbound =
    | InSignal(from: Id, data: Payload)
    | InRequestOffer(from: Id)
    | InPong
    | InReload
    | InOther(event: string)

  /** The `message` event re-emitted to the channel's listener. */
  datatype Message =
    | SignalFrom(from: Id, data: Payload)
    | RequestOfferFrom(from: Id)

  /** Life of the current socket; `Detached` once `destroy` removed its listeners and closed it. */
  datatype Socket = Connecting | Open | Closing | Closed | Detached

  /** One `socket.send`: delivered on an open socket, discarded on a closing or closed one. */
  datatype Handoff = Handoff(msg: Outbound, delivered: bool)

  datatype Channel = Channel(
    uuid: string,
    socket: Socket,
    queue: seq<Outbound>,       // messages held back while not connected
    isConnected: bool,
    heartbeatAcknowledged: bool,
    heartbeatArmed: bool,
    reconnectArmed: bool,
    tokensPending: nat,         // identity-token requests not yet resolved
    wire: seq<Handoff>)         // every message handed to a socket, in order

  /** Callbacks delivered to the channel by its socket, token request and timers. */
  datatype Event =
    | SocketOpened
    | TokenResolved(token: Token)
    | Received(msg: Inbound)
    | ClosingStarted            // the closing handshake began; no listener runs
    | SocketClosed
    | HeartbeatDue
    | ReconnectDue

  /** The public calls of the channel. */
  datatype Request =
    | RequestOfferCall(to: Id)
    | AssertControlCall
    | SignalCall(to: Id, data: Payload)

  datatype Input = Env(event: Event) | Call(request: Request)

  /** The message a public call sends or queues. */
  function Wire(r: Request): (msg: Outbound)
    ensures IsRequest(msg)
  {
    match r
    case RequestOfferCall(to) => RequestOfferMsg(to)
    case AssertControlCall => AssertControlMsg
    case SignalCall(to, data) => SignalMsg(to, data)
  }

  /** The messages of a run of hand-offs, in order. */
  function Msgs(w: seq<Handoff>): (r: seq<Outbound>)
    ensures |r| == |w|
    decreases |w|
  {
    if w == [] then [] else [w[0].msg] + Msgs(w[1..])
  }

  /** Hands each of `ms` to the socket in turn, all with the same outcome. */
  function HandAll(ms: seq<Outbound>, delivered: bool): (w: seq<Handoff>)
    ensures |w| == |ms| && forall i | 0 <= i < |w| :: w[i] == Handoff(ms[i], delivered)
    decreases |ms|
  {
    if ms == [] then [] else [Handoff(ms[0], delivered)] + HandAll(ms[1..], delivered)
  }

  /** What a socket in state `s` does with a message it is handed (a connecting socket throws instead). */
  function HandTo(s: Socket, msg: Outbound): Handoff {
    Handoff(msg, s == Open)
  }

  /**
   * What every reachable channel satisfies. A connected channel's socket is
   * open, or closing, or gone with `destroy`: never connecting, so no public
   * call ever meets the throwing `send`. The heartbeat stays armed through a
   * closing handshake the server started, until the close event clears it.
   */
  predicate Valid(c: Channel) {
    && (c.isConnected ==> c.queue == [])
    && (c.isConnected ==> c.socket == Open || c.socket == Closing || c.socket == Detached)
    && (forall i | 0 <= i < |c.queue| :: IsRequest(c.queue[i]))
    && (c.heartbeatArmed ==> c.socket == Open || c.socket == Closing)
    && (c.reconnectArmed <==> c.socket == Closed)
  }

  /** The constructor: a fresh socket for `uuid`, nothing queued or sent. */
  function Create(uuid: string): (c: Channel)
    ensures Valid(c)
    ensures c.uuid == uuid && c.socket == Connecting
    ensures !c.isConnected && c.queue == [] && c.wire == []
    ensures c.heartbeatAcknowledged && !c.heartbeatArmed && !c.reconnectArmed
  {
    Channel(uuid, Connecting, [], false, true, false, false, 0, [])
  }

  /**
   * Shared tail of the three public calls: queue while disconnected, hand to
   * the socket otherwise. A connecting socket would throw, so nothing leaves;
   * no valid channel is connected on a connecting socket.
   */
  function Send(c: Channel, msg: Outbound): Channel {
    if !c.isConnected then c.(queue := c.queue + [msg])
    else if c.socket == Connecting then c
    else c.(wire := c.wire + [HandTo(c.socket, msg)])
  }

  /** Every message handed to a socket, then every message still held back. */
  function Traffic(c: Channel): seq<Outbound> {
    Msgs(c.wire) + c.queue
  }

  /** `requestOffer(id)`: a `request_offer` carrying `to`. */
  function RequestOffer(c: Channel, id: Id): (r: Channel)
    ensures !c.isConnected ==> r.queue == c.queue + [RequestOfferMsg(id)] && r.wire == c.wire
    ensures c.isConnected && c.socket != Connecting ==>
      r.wire == c.wire + [Handoff(RequestOfferMsg(id), c.socket == Open)] && r.queue == c.queue
    ensures c.isConnected && c.socket == Connecting ==> r == c
    ensures r.(queue := c.queue, wire := c.wire) == c
  {
    Send(c, RequestOfferMsg(id))
  }

  /** `assertControl()`: an `assert_control` with no data. */
  function AssertControl(c: Channel): (r: Channel)
    ensures !c.isConnected ==> r.queue == c.queue + [AssertControlMsg] && r.wire == c.wire
    ensures c.isConnected && c.socket != Connecting ==>
      r.wire == c.wire + [Handoff(AssertControlMsg, c.socket == Open)] && r.queue == c.queue
    ensures c.isConnected && c.socket == Connecting ==> r == c
    ensures r.(queue := c.queue, wire := c.wire) == c
  {
    Send(c, AssertControlMsg)
  }

  /** `signal(id, data)`: a `signal` carrying `to` and `data`. */
  function Signal(c: Channel, id: Id, data: Payload): (r: Channel)
    ensures !c.isConnected ==> r.queue == c.queue + [SignalMsg(id, data)] && r.wire == c.wire
    ensures c.isConnected && c.socket != Connecting ==>
      r.wire == c.wire + [Handoff(SignalMsg(id, data), c.socket == Open)] && r.queue == c.queue
    ensures c.isConnected && c.socket == Connecting ==> r == c
    ensures r.(queue := c.queue, wire := c.wire) == c
  {
    Send(c, SignalMsg(id, data))
  }

  /**
   * The open listener: asks for an identity token, acknowledges the heartbeat
   * and arms one heartbeat timer. It does not mark the channel connected.
   */
  function OnOpen(c: Channel): (r: Channel)
    ensures c.socket != Connecting ==> r == c
    ensures c.socket == Connecting ==>
      && r.socket == Open
      && r.tokensPending == c.tokensPending + 1
      && r.heartbeatAcknowledged && r.heartbeatArmed
      && r.isConnected == c.isConnected
      && r.queue == c.queue && r.wire == c.wire
  {
    if c.socket != Connecting then c
    else c.(socket := Open, tokensPending := c.tokensPending + 1,
             heartbeatAcknowledged := true, heartbeatArmed := true)
  }

  /**
   * Resolution of the token request made by `_identify`, with the flush kept
   * to an open socket, as evidently meant: `identify` goes out first, then
   * every queued message once in the order it was queued; the queue empties
   * and the channel counts as connected. On a connecting socket the first
   * `send` throws, and on a closing or closed one the token is stale; either
   * way the channel keeps its queue and stays as it was.
   */
  function OnToken(c: Channel, token: Token): (r: Channel)
    ensures c.tokensPending == 0 ==> r == c
    ensures c.tokensPending > 0 && c.socket == Open ==>
      && r.wire == c.wire + [Handoff(IdentifyMsg(token, c.uuid), true)] + HandAll(c.queue, true)
      && r.queue == []
      && r.isConnected
      && r == c.(wire := r.wire, queue := [], isConnected := true, tokensPending := c.tokensPending - 1)
    ensures c.tokensPending > 0 && c.socket != Open ==> r == c.(tokensPending := c.tokensPending - 1)
    ensures forall k | |c.wire| <= k < |r.wire| :: r.wire[k].delivered
  {
    if c.tokensPending == 0 then c
    else if c.socket != Open then c.(tokensPending := c.tokensPending - 1)
    else c.(wire := c.wire + [Handoff(IdentifyMsg(token, c.uuid), true)] + HandAll(c.queue, true),
            queue := [], isConnected := true, tokensPending := c.tokensPending - 1)
  }

  /**
   * The token resolution as written: it sends through whatever socket is
   * current. A connecting socket throws before anything changes; a closing or
   * closed one discards `identify` and the whole queue, and the channel still
   * empties its queue and counts as connected.
   */
  function OnTokenAsWritten(c: Channel, token: Token): (r: Channel)
    ensures c.tokensPending > 0 && c.socket == Open ==> r == OnToken(c, token)
    ensures c.tokensPending > 0 && (c.socket == Closing || c.socket == Closed || c.socket == Detached) ==>
      && r.wire == c.wire + [Handoff(IdentifyMsg(token, c.uuid), false)] + HandAll(c.queue, false)
      && r.queue == [] && r.isConnected
  {
    if c.tokensPending == 0 then c
    else if c.socket == Connecting then c.(tokensPending := c.tokensPending - 1)
    else
      var open := c.socket == Open;
      c.(wire := c.wire + [Handoff(IdentifyMsg(token, c.uuid), open)] + HandAll(c.queue, open),
         queue := [], isConnected := true, tokensPending := c.tokensPending - 1)
  }

  /**
   * The message listener: `signal` and `request_offer` are re-emitted with the
   * sender and payload, `pong` acknowledges the heartbeat, anything else is
   * dropped. A WebSocket dispatches `message` only while it is open (the
   * WHATWG WebSocket standard, "feedback from the protocol"), so on any other
   * socket, including a detached one, nothing is heard.
   */
  function OnReceive(c: Channel, msg: Inbound): (r: (Channel, Option<Message>))
    ensures r.0 == c.(heartbeatAcknowledged := r.0.heartbeatAcknowledged)
    ensures r.0.heartbeatAcknowledged <==> c.heartbeatAcknowledged || (c.socket == Open && msg.InPong?)
    ensures r.1.Some? <==> c.socket == Open && (msg.InSignal? || msg.InRequestOffer?)
    ensures r.1.Some? ==> r.1.value.from == msg.from && (r.1.value.SignalFrom? <==> msg.InSignal?)
    ensures r.1.Some? && msg.InSignal? ==> r.1.value.data == msg.data
  {
    if c.socket != Open then (c, None)
    else
      match msg
      case InSignal(from, data) => (c, Some(SignalFrom(from, data)))
      case InRequestOffer(from) => (c, Some(RequestOfferFrom(from)))
      case InPong => (c.(heartbeatAcknowledged := true), None)
      case InReload => (c, None)
      case InOther(_) => (c, None)
  }

  /**
   * The close listener: the channel is no longer connected, the heartbeat
   * timer is cleared and one reconnect is scheduled. Queued messages stay.
   */
  function OnClose(c: Channel): (r: Channel)
    ensures c.socket == Closed || c.socket == Detached ==> r == c
    ensures c.socket != Closed && c.socket != Detached ==>
      && r.socket == Closed && !r.isConnected
      && !r.heartbeatArmed && r.reconnectArmed
      && r.queue == c.queue && r.wire == c.wire && r.uuid == c.uuid
  {
    if c.socket == Closed || c.socket == Detached then c
    else c.(socket := Closed, isConnected := false, heartbeatArmed := false, reconnectArmed := true)
  }

  /**
   * The closing handshake begins, started by the server (or the network):
   * the socket's `readyState` becomes CLOSING at once, while its `close`
   * event, and with it the close listener, comes later. Nothing else changes.
   */
  function OnClosingStarted(c: Channel): (r: Channel)
    ensures c.socket == Open ==> r == c.(socket := Closing)
    ensures c.socket != Open ==> r == c
  {
    if c.socket == Open then c.(socket := Closing) else c
  }

  /** `socket.close()`: only a socket that is not yet closing changes. */
  function CloseSocket(s: Socket): Socket {
    if s == Connecting || s == Open then Closing else s
  }

  /**
   * `_heartbeat`: an unacknowledged ping closes the socket and stops the
   * heartbeat; otherwise exactly one ping goes out, the acknowledgement is
   * cleared and the timer is armed again. (The timer is armed only on an
   * open socket, or on one whose closing handshake the server began: there
   * the ping is discarded.)
   */
  function OnHeartbeat(c: Channel): (r: Channel)
    ensures !c.heartbeatArmed ==> r == c
    ensures c.heartbeatArmed && !c.heartbeatAcknowledged ==>
      && r.wire == c.wire && !r.heartbeatArmed
      && (c.socket == Open ==> r.socket == Closing)
      && r.queue == c.queue && r.isConnected == c.isConnected
    ensures c.heartbeatArmed && c.heartbeatAcknowledged ==>
      && r.wire == c.wire + [HandTo(c.socket, PingMsg)] && r.heartbeatArmed
      && !r.heartbeatAcknowledged && r.socket == c.socket
      && r.queue == c.queue && r.isConnected == c.isConnected
  {
    if !c.heartbeatArmed then c
    else if !c.heartbeatAcknowledged then c.(heartbeatArmed := false, socket := CloseSocket(c.socket))
    else c.(heartbeatAcknowledged := false, wire := c.wire + [HandTo(c.socket, PingMsg)])
  }

  /** The reconnect timer: `initialize()` again, with the same uuid and queue. */
  function OnReconnect(c: Channel): (r: Channel)
    ensures !c.reconnectArmed ==> r == c
    ensures c.reconnectArmed ==>
      && r.socket == Connecting && !r.reconnectArmed
      && r.uuid == c.uuid && r.queue == c.queue && r.wire == c.wire
      && r.isConnected == c.isConnected
  {
    if !c.reconnectArmed then c else c.(reconnectArmed := false, socket := Connecting)
  }

  /** Dispatches one callback; the second component is the re-emitted message, if any. */
  function React(c: Channel, e: Event): (Channel, Option<Message>) {
    match e
    case SocketOpened => (OnOpen(c), None)
    case TokenResolved(token) => (OnToken(c, token), None)
    case Received(msg) => OnReceive(c, msg)
    case ClosingStarted => (OnClosingStarted(c), None)
    case SocketClosed => (OnClose(c), None)
    case HeartbeatDue => (OnHeartbeat(c), None)
    case ReconnectDue => (OnReconnect(c), None)
  }

  function Step(c: Channel, i: Input): Channel {
    match i
    case Env(e) => React(c, e).0
    case Call(RequestOfferCall(to)) => RequestOffer(c, to)
    case Call(AssertControlCall) => AssertControl(c)
    case Call(SignalCall(to, data)) => Signal(c, to, data)
  }

  function Run(c: Channel, inputs: seq<Input>): Channel
    decreases |inputs|
  {
    if inputs == [] then c else Run(Step(c, inputs[0]), inputs[1..])
  }

  /**
   * `destroy()` with the timer it evidently means to clear: no heartbeat, no
   * reconnect, listeners gone.
   */
  function Destroy(c: Channel): (r: Channel)
    ensures r.socket == Detached && !r.heartbeatArmed && !r.reconnectArmed
    ensures r.queue == c.queue && r.wire == c.wire
  {
    c.(socket := Detached, heartbeatArmed := false, reconnectArmed := false)
  }

  /**
   * `destroy()` as written: it clears a `reconnectTimeout` field that is never
   * set, so a reconnect scheduled by an earlier close stays armed.
   */
  function DestroyAsWritten(c: Channel): (r: Channel)
    ensures r.socket == Detached && !r.heartbeatArmed
    ensures r.reconnectArmed == c.reconnectArmed
  {
    c.(socket := Detached, heartbeatArmed := false)
  }

  // ---------------------------------------------------------------------
  // Properties

  /** Every callback and every public call keeps the channel invariant. */
  lemma StepPreservesValid(c: Channel, i: Input)
    requires Valid(c)
    ensures Valid(Step(c, i))
  {
    match i
    case Call(r) =>
      var r' := Step(c, i);
      assert r'.queue == c.queue + [Wire(r)] || r'.queue == c.queue;
    case Env(e) =>
  }

  /** The public calls, in the order they were made. */
  function Requests(inputs: seq<Input>): (reqs: seq<Outbound>)
    ensures forall k | 0 <= k < |reqs| :: IsRequest(reqs[k])
    decreases |inputs|
  {
    if inputs == [] then []
    else (if inputs[0].Call? then [Wire(inputs[0].request)] else []) + Requests(inputs[1..])
  }

  /** The public-call messages among those handed to a socket, in order. */
  function AppMessages(s: seq<Outbound>): (r: seq<Outbound>)
    ensures forall k | 0 <= k < |r| :: IsRequest(r[k])
    decreases |s|
  {
    if s == [] then []
    else (if IsRequest(s[0]) then [s[0]] else []) + AppMessages(s[1..])
  }

  lemma {:induction false} AppMessagesAppend(a: seq<Outbound>, b: seq<Outbound>)
    ensures AppMessages(a + b) == AppMessages(a) + AppMessages(b)
    decreases |a|
  {
    if a == [] {
      assert a + b == b;
    } else {
      assert (a + b)[0] == a[0];
      assert (a + b)[1..] == a[1..] + b;
      AppMessagesAppend(a[1..], b);
    }
  }

  lemma {:induction false} MsgsAppend(a: seq<Handoff>, b: seq<Handoff>)
    ensures Msgs(a + b) == Msgs(a) + Msgs(b)
    decreases |a|
  {
    if a == [] {
      assert a + b == b;
    } else {
      assert (a + b)[0] == a[0];
      assert (a + b)[1..] == a[1..] + b;
      MsgsAppend(a[1..], b);
    }
  }

  lemma {:induction false} MsgsHandAll(ms: seq<Outbound>, delivered: bool)
    ensures Msgs(HandAll(ms, delivered)) == ms
    decreases |ms|
  {
    if ms != [] {
      MsgsHandAll(ms[1..], delivered);
    }
  }

  /** A message handed to a socket in the state `s`, whatever becomes of it, is on the wire. */
  lemma MsgsHandTo(w: seq<Handoff>, s: Socket, msg: Outbound)
    ensures Msgs(w + [HandTo(s, msg)]) == Msgs(w) + [msg]
  {
    MsgsAppend(w, [HandTo(s, msg)]);
    assert Msgs([HandTo(s, msg)]) == [msg] + Msgs([]);
  }

  /**
   * On a valid channel every public call adds its message to the traffic,
   * after everything handed out or queued before it.
   */
  lemma SendTraffic(c: Channel, msg: Outbound)
    requires Valid(c)
    ensures Traffic(Send(c, msg)) == Traffic(c) + [msg]
  {
    if c.isConnected {
      MsgsHandTo(c.wire, c.socket, msg);
    }
  }

  /**
   * One step conserves the public-call traffic: what was handed to the socket
   * (delivered or discarded) followed by what is still queued grows exactly by
   * the message of a public call, and is untouched by every callback
   * (identify and ping are not counted).
   */
  lemma StepConservesRequests(c: Channel, i: Input)
    requires Valid(c)
    ensures AppMessages(Traffic(Step(c, i))) == AppMessages(Traffic(c)) + Requests([i])
  {
    assert Requests([i]) == (if i.Call? then [Wire(i.request)] else []) + Requests([]);
    match i
    case Call(req) => SendConserves(c, Wire(req));
    case Env(e) => ReactConserves(c, e);
  }

  lemma SendConserves(c: Channel, msg: Outbound)
    requires Valid(c) && IsRequest(msg)
    ensures AppMessages(Traffic(Send(c, msg))) == AppMessages(Traffic(c)) + [msg]
  {
    SendTraffic(c, msg);
    AppMessagesAppend(Traffic(c), [msg]);
    assert AppMessages([msg]) == [msg] + AppMessages([]);
  }

  lemma ReactConserves(c: Channel, e: Event)
    requires Valid(c)
    ensures AppMessages(Traffic(React(c, e).0)) == AppMessages(Traffic(c))
  {
    match e
    case TokenResolved(token) => TokenConserves(c, token);
    case HeartbeatDue => HeartbeatConserves(c);
    case _ =>
  }

  /** The traffic of hand-offs `w` followed by `q`, filtered, splits at the seam. */
  lemma TrafficSplit(w: seq<Handoff>, q: seq<Outbound>)
    ensures AppMessages(Msgs(w) + q) == AppMessages(Msgs(w)) + AppMessages(q)
  {
    AppMessagesAppend(Msgs(w), q);
  }

  lemma TokenConserves(c: Channel, token: Token)
    requires Valid(c)
    ensures AppMessages(Traffic(OnToken(c, token))) == AppMessages(Traffic(c))
  {
    if c.tokensPending > 0 && c.socket == Open {
      var id := IdentifyMsg(token, c.uuid);
      var r := OnToken(c, token);
      var w1 := c.wire + [Handoff(id, true)];
      assert r.wire == w1 + HandAll(c.queue, true) && r.queue == [];
      MsgsAppend(w1, HandAll(c.queue, true));
      MsgsHandAll(c.queue, true);
      MsgsHandTo(c.wire, Open, id);
      assert Msgs(r.wire) == Msgs(c.wire) + [id] + c.queue;
      TrafficSplit(r.wire, []);
      AppMessagesAppend(Msgs(c.wire) + [id], c.queue);
      AppMessagesAppend(Msgs(c.wire), [id]);
      assert AppMessages([id]) == [] + AppMessages([]);
      TrafficSplit(c.wire, c.queue);
    }
  }

  lemma HeartbeatConserves(c: Channel)
    requires Valid(c)
    ensures AppMessages(Traffic(OnHeartbeat(c))) == AppMessages(Traffic(c))
  {
    if c.heartbeatArmed && c.heartbeatAcknowledged {
      var r := OnHeartbeat(c);
      MsgsHandTo(c.wire, c.socket, PingMsg);
      TrafficSplit(r.wire, r.queue);
      AppMessagesAppend(Msgs(c.wire), [PingMsg]);
      assert AppMessages([PingMsg]) == [] + AppMessages([]);
      TrafficSplit(c.wire, c.queue);
    }
  }

  lemma RequestsCons(inputs: seq<Input>)
    requires inputs != []
    ensures Requests(inputs) == Requests([inputs[0]]) + Requests(inputs[1..])
  {
    var head := if inputs[0].Call? then [Wire(inputs[0].request)] else [];
    assert [inputs[0]][1..] == [];
    assert Requests([inputs[0]]) == head + Requests([]) == head;
    assert Requests(inputs) == head + Requests(inputs[1..]);
  }

  /**
   * Across any run of callbacks and calls, including closes and reconnects,
   * no public-call message is duplicated and none overtakes another: those
   * handed to a socket followed by those still queued are exactly the
   * messages of the calls, in call order. Which of the hand-offs arrived is
   * the concern of `RunLosesOnlyWhileClosing`.
   */
  lemma {:induction false} RunConservesRequests(c: Channel, inputs: seq<Input>)
    requires Valid(c)
    ensures Valid(Run(c, inputs))
    ensures AppMessages(Traffic(Run(c, inputs))) == AppMessages(Traffic(c)) + Requests(inputs)
    decreases |inputs|
  {
    if inputs != [] {
      var c1 := Step(c, inputs[0]);
      StepPreservesValid(c, inputs[0]);
      StepConservesRequests(c, inputs[0]);
      RunConservesRequests(c1, inputs[1..]);
      assert Run(c, inputs) == Run(c1, inputs[1..]);
      RequestsCons(inputs);
    }
  }

  /** Every hand-off of `w` from position `n` on reached the server. */
  predicate DeliveredFrom(w: seq<Handoff>, n: nat) {
    forall k | n <= k < |w| :: w[k].delivered
  }

  /** No step of the run starts with the socket closing, whoever began it, or destroyed. */
  predicate NeverClosing(c: Channel, inputs: seq<Input>)
    decreases |inputs|
  {
    inputs == [] ||
      (c.socket != Closing && c.socket != Detached && NeverClosing(Step(c, inputs[0]), inputs[1..]))
  }

  /**
   * One step only appends to the wire, and what it appends is discarded only
   * if the socket was closing (a closing handshake begun by either side) or
   * destroyed: a valid channel never hands a message to a connecting or
   * closed socket.
   */
  lemma StepLosesOnlyWhileClosing(c: Channel, i: Input)
    requires Valid(c)
    ensures c.wire <= Step(c, i).wire
    ensures c.socket != Closing && c.socket != Detached ==> DeliveredFrom(Step(c, i).wire, |c.wire|)
  {
  }

  /**
   * Across a run in which the socket is never closing or destroyed, every
   * hand-off is made to an open socket, so `send` transmits it.
   */
  lemma {:induction false} RunLosesOnlyWhileClosing(c: Channel, inputs: seq<Input>)
    requires Valid(c) && NeverClosing(c, inputs)
    ensures c.wire <= Run(c, inputs).wire
    ensures DeliveredFrom(Run(c, inputs).wire, |c.wire|)
    decreases |inputs|
  {
    if inputs != [] {
      var c1 := Step(c, inputs[0]);
      StepPreservesValid(c, inputs[0]);
      StepLosesOnlyWhileClosing(c, inputs[0]);
      RunLosesOnlyWhileClosing(c1, inputs[1..]);
      var r := Run(c, inputs);
      assert r == Run(c1, inputs[1..]);
      forall k | |c.wire| <= k < |r.wire|
        ensures r.wire[k].delivered
      {
        if k < |c1.wire| {
          assert r.wire[k] == c1.wire[k];
        }
      }
    }
  }

  /**
   * Once the server begins the closing handshake, a connected channel still
   * hands its calls to the socket, and the socket discards them until the
   * close event disconnects the channel.
   */
  lemma ServerClosingDiscards(c: Channel, to: Id)
    requires Valid(c) && c.isConnected && c.socket == Open
    ensures var r := RequestOffer(OnClosingStarted(c), to);
      && r.wire == c.wire + [Handoff(RequestOfferMsg(to), false)]
      && r.isConnected && r.queue == []
  {
  }

  /** Only a token resolution turns a disconnected channel into a connected one. */
  lemma OnlyTokenConnects(c: Channel, i: Input)
    requires !c.isConnected
    requires !(i.Env? && i.event.TokenResolved?)
    ensures !Step(c, i).isConnected
  {
  }

  /**
   * Two heartbeat firings with no pong between them leave the socket
   * closing: at most one ping goes out and the heartbeat is left disarmed.
   */
  lemma MissedHeartbeatCloses(c: Channel)
    requires Valid(c) && c.heartbeatArmed
    ensures var r := OnHeartbeat(OnHeartbeat(c));
      && r.socket == Closing && !r.heartbeatArmed
      && |r.wire| <= |c.wire| + 1
  {
  }

  /**
   * A close followed by its reconnect firing opens a new socket for the same
   * uuid; nothing queued is dropped and the channel stays disconnected until
   * the next identify.
   */
  lemma CloseThenReconnect(c: Channel)
    requires Valid(c) && (c.socket == Open || c.socket == Connecting || c.socket == Closing)
    ensures var r := OnReconnect(OnClose(c));
      && r.socket == Connecting && r.uuid == c.uuid
      && r.queue == c.queue && !r.isConnected && Valid(r)
  {
  }

  /** After `Destroy` no callback can bring a socket back. */
  lemma {:induction false} DestroyIsFinal(c: Channel, events: seq<Event>)
    ensures var r := RunEvents(Destroy(c), events);
      r.socket == Detached && !r.reconnectArmed && !r.heartbeatArmed
    decreases |events|
  {
    if events != [] {
      var d := Destroy(c);
      var d1 := React(d, events[0]).0;
      assert d1 == Destroy(d1);
      DestroyIsFinal(d1, events[1..]);
    }
  }

  function RunEvents(c: Channel, events: seq<Event>): Channel
    decreases |events|
  {
    if events == [] then c else RunEvents(React(c, events[0]).0, events[1..])
  }

  /**
   * `destroy` as written can be undone by a pending reconnect: a channel whose
   * socket just closed is destroyed, and the reconnect firing opens a new
   * socket with listeners attached.
   */
  lemma DestroyAsWrittenReconnects()
    ensures var c := OnClose(OnOpen(Create("u")));
      && Valid(c)
      && OnReconnect(DestroyAsWritten(c)).socket == Connecting
  {
  }

  /**
   * The token resolution as written loses traffic: a call made before the
   * first identify is queued, the socket closes before the token arrives, and
   * the stale token hands `identify` and the queue to the closed socket. After
   * the reconnect the channel counts as connected on a connecting socket, the
   * queue is gone, and the next call meets the throwing `send` and leaves no
   * trace.
   */
  lemma StaleTokenLosesQueue()
    ensures var c0 := OnClose(RequestOffer(OnOpen(Create("u")), "x"));
      var c1 := OnReconnect(OnTokenAsWritten(c0, "t"));
      && Valid(c0)
      && c1.wire == [Handoff(IdentifyMsg("t", "u"), false), Handoff(RequestOfferMsg("x"), false)]
      && c1.queue == [] && c1.isConnected && c1.socket == Connecting
      && !Valid(c1)
      && RequestOffer(c1, "y") == c1
  {
    var c0 := OnClose(RequestOffer(OnOpen(Create("u")), "x"));
    assert c0.queue == [RequestOfferMsg("x")];
    assert HandAll(c0.queue, false) == [Handoff(RequestOfferMsg("x"), false)];
  }

  /**
   * The same trace with the flush kept to an open socket: the stale token
   * sends nothing, the queued request survives the reconnect, and it goes out
   * after the next identify on the new socket.
   */
  lemma StaleTokenKeepsQueue()
    ensures var c0 := OnClose(RequestOffer(OnOpen(Create("u")), "x"));
      var c1 := OnReconnect(OnToken(c0, "t"));
      var c2 := OnToken(OnOpen(c1), "t2");
      && c1.wire == [] && c1.queue == [RequestOfferMsg("x")] && !c1.isConnected && Valid(c1)
      && c2.wire == [Handoff(IdentifyMsg("t2", "u"), true), Handoff(RequestOfferMsg("x"), true)]
      && c2.isConnected
  {
    var c0 := OnClose(RequestOffer(OnOpen(Create("u")), "x"));
    assert c0.queue == [RequestOfferMsg("x")];
    assert HandAll(c0.queue, true) == [Handoff(RequestOfferMsg("x"), true)];
  }
}

=== FILE: stream_manager.dfy ===
/**
 * The per-peer session orchestrator. One local outbound stream is shared with
 * every remote participant; each remote id has a session that moves through
 * NotTracking, Resetting, Initializing, Streaming and Broken.
 *
 * The orchestrator is one record holding a session per remote id. Each input
 * (a public call, a channel callback, a peer or track event, a timer firing)
 * is a pure function from record to record. Fired events and signals handed
 * to a peer handle are appended to `log`; messages for the signalling server
 * end up in the channel's own `wire` and `queue`.
 *
 * Every transition of one session is first stated on a lone `Session`
 * (`ResetSession`, `InitializingSession`, `StreamingSession`, ...); the
 * manager-level operation then stores the new session and appends its events.
 */
module StreamManager {
  import opened Wrappers
  import opened StringOrder
  import Signalling

  type Id = string
  type Payload = string
  /** A peer-connection object, by creation number: every `new Peer` gets a fresh one. */
  type Handle = nat

  datatype State = NotTracking | Resetting | Initializing | Streaming | Broken

  /** The states in which a session holds a live peer handle. */
  predicate OwnsPeer(s: State) {
    s == Initializing || s == Streaming || s == Broken
  }

  /** The states in which a session holds an inbound stream. */
  predicate Receiving(s: State) {
    s == Streaming || s == Broken
  }

  datatype Kind = Video | Audio

  function OtherKind(k: Kind): Kind {
    match k
    case Video => Audio
    case Audio => Video
  }

  /**
   * One boolean per track kind: a per-peer intent (`videoEnabled[id]`,
   * `audioEnabled[id]`), the two global switches, or the `enabled` flags of
   * one outbound stream's video and audio tracks.
   */
  datatype Flags = Flags(video: bool, audio: bool) {
    function Get(k: Kind): bool {
      match k
      case Video => video
      case Audio => audio
    }

    function Set(k: Kind, b: bool): (f: Flags)
      ensures f.Get(k) == b && f.Get(OtherKind(k)) == Get(OtherKind(k))
    {
      match k
      case Video => this.(video := b)
      case Audio => this.(audio := b)
    }
  }

  /** Kind by kind, both flags on. */
  function Both(a: Flags, b: Flags): (f: Flags)
    ensures forall k :: f.Get(k) == (a.Get(k) && b.Get(k))
  {
    Flags(a.video && b.video, a.audio && b.audio)
  }

  /** A newly made outbound stream: every track enabled. */
  const AllOn := Flags(true, true)

  /** A public call made before the local stream was ready, kept for replay. */
  datatype Action = Add(id: Id) | Remove(id: Id) | Control

  /** Observable effects, in the order they happen. */
  datatype Effect =
    | StreamUpdate(id: Id, state: State)            // the `streamUpdate` event
    | StreamIn(id: Id)                              // the `streamIn` event
    | StreamOut                                     // the `streamOut` event
    | Muted(kind: Kind, muted: bool)                // `mutedVideo` / `mutedAudio`
    | PeerSignalled(id: Id, peer: Handle, data: Payload)  // `peer.signal(data)`

  /**
   * Everything kept about one remote id. Each field stands for one of the
   * source's per-id dictionaries: `state` for `states`, `peer` for `peers`,
   * `streamIn` for `streamsIn`, `streamOut` for `streamsOut` (the enabled
   * flags of its tracks), the two timer flags for `initializingTimers` /
   * `brokenTimers`, `pendingSignal` for `pendingSignals`, and `enabled` for
   * `videoEnabled` / `audioEnabled`. An absent entry is `None` or false.
   */
  datatype Session = Session(
    state: State,
    peer: Option<Handle>,
    streamIn: bool,
    streamOut: Option<Flags>,
    initTimer: bool,
    brokenTimer: bool,
    pendingSignal: Option<Payload>,
    enabled: Flags)

  /** The session of an id nothing was ever recorded for. */
  const Idle := Session(NotTracking, None, false, None, false, false, None, Flags(false, false))

  datatype Manager = Manager(
    browser: bool,            // the host has `navigator.mediaDevices`
    hasMediaDevices: bool,    // the injected media capability can capture
    myId: Id,
    initialized: bool,
    captures: nat,            // capture requests not yet answered
    haveStreamOut: bool,
    ready: bool,
    pendingActions: seq<Action>,
    server: Option<Signalling.Channel>,
    sessions: map<Id, Session>,
    order: seq<Id>,           // the ids ever assigned a state, first assignment first
    nextHandle: Handle,
    global: Flags,            // `globalVideoEnabled` / `globalAudioEnabled`
    log: seq<Effect>)

  /** The constructor: nothing tracked, both global switches on. */
  function Create(browser: bool, hasMediaDevices: bool): (m: Manager)
    ensures !m.initialized && !m.ready && m.server == None
    ensures forall id :: StateOf(m, id) == NotTracking
    ensures m.global == AllOn
  {
    Manager(browser, hasMediaDevices, "", false, 0, false, false, [], None, map[], [], 0, AllOn, [])
  }

  // ---------------------------------------------------------------------
  // Lookups

  function Get(m: Manager, id: Id): Session {
    if id in m.sessions then m.sessions[id] else Idle
  }

  /** `r` differs from `m` at most in the session of `id`. */
  predicate OthersUnchanged(m: Manager, r: Manager, id: Id) {
    r.sessions == m.sessions[id := Get(r, id)]
  }

  /** Replaces the session of `id`; every other session stays as it was. */
  function Put(m: Manager, id: Id, s: Session): (r: Manager)
    ensures Get(r, id) == s && OthersUnchanged(m, r, id)
  {
    m.(sessions := m.sessions[id := s])
  }

  /** `states[id]`: an id that was never assigned a state reads as NotTracking. */
  function StateOf(m: Manager, id: Id): (s: State)
    ensures id !in m.sessions ==> s == NotTracking
  {
    Get(m, id).state
  }

  /** Whether `h` is the handle whose listeners are still attached for `id`. */
  predicate IsLive(m: Manager, id: Id, h: Handle) {
    Get(m, id).peer == Some(h)
  }

  /** The side whose id sorts first creates the offer; the other requests one. */
  predicate IsInitiator(me: Id, them: Id) {
    LexLess(me, them)
  }

  /** `r` agrees with `m` on every field that no session transition touches. */
  predicate SameSettings(m: Manager, r: Manager) {
    && r.browser == m.browser && r.hasMediaDevices == m.hasMediaDevices
    && r.myId == m.myId && r.initialized == m.initialized && r.captures == m.captures
    && r.haveStreamOut == m.haveStreamOut && r.ready == m.ready
    && r.pendingActions == m.pendingActions && r.global == m.global
  }

  /** `order` after `id` is assigned a state: appended the first time only. */
  function Record(order: seq<Id>, id: Id): (r: seq<Id>)
    ensures id in r && forall j :: j in r <==> j in order || j == id
    ensures id in order ==> r == order
  {
    if id in order then order else order + [id]
  }

  // ---------------------------------------------------------------------
  // Transitions of one session

  /** Stores a state and fires `streamUpdate` for it, in one step. */
  function SetState(m: Manager, id: Id, st: State): (r: Manager)
    ensures Get(r, id) == Get(m, id).(state := st) && OthersUnchanged(m, r, id)
    ensures r.log == m.log + [StreamUpdate(id, st)]
    ensures SameSettings(m, r) && r.order == Record(m.order, id)
    ensures r.nextHandle == m.nextHandle && r.server == m.server
  {
    Put(m, id, Get(m, id).(state := st)).(order := Record(m.order, id), log := m.log + [StreamUpdate(id, st)])
  }

  /** `_clearTimeouts`: neither timer stays armed. */
  function ClearTimeouts(s: Session): (t: Session)
    ensures !t.initTimer && !t.brokenTimer
    ensures t.(initTimer := s.initTimer, brokenTimer := s.brokenTimer) == s
  {
    s.(initTimer := false, brokenTimer := false)
  }

  /**
   * `_reset` on one session: state Resetting, no timer, no peer handle, no
   * inbound stream and, in a browser, no outbound one. The buffered signal
   * and the intents survive.
   */
  function ResetSession(s: Session, browser: bool): (t: Session)
    ensures t.state == Resetting
    ensures t.peer == None && !t.streamIn && !t.initTimer && !t.brokenTimer
    ensures browser ==> t.streamOut == None
    ensures !browser ==> t.streamOut == s.streamOut
    ensures t.pendingSignal == s.pendingSignal && t.enabled == s.enabled
  {
    var t := ClearTimeouts(s.(state := Resetting));
    t.(peer := None, streamIn := false, streamOut := if browser then None else s.streamOut)
  }

  /**
   * The track switches of the local stream, which every outbound stream
   * starts as a copy of (a clone keeps each track's `enabled`). Before the
   * first capture there is no local stream and no session is started.
   */
  function LocalTracks(m: Manager): Flags {
    var local := Get(m, m.myId).streamOut;
    if local.Some? then local.value else AllOn
  }

  /**
   * The session `_initializing` leaves behind: after the reset, the
   * initializing timer armed, a new outbound stream whose tracks copy the
   * local stream's `local`, the new handle `h`, the buffered signal consumed,
   * and the state Initializing. Of the old session only the intents survive.
   */
  function InitializingSession(s: Session, browser: bool, h: Handle, local: Flags): (t: Session)
    ensures t.state == Initializing && t.peer == Some(h) && !t.streamIn
    ensures t.initTimer && !t.brokenTimer
    ensures t.streamOut == Some(local) && t.pendingSignal == None
    ensures t.enabled == s.enabled
  {
    var t := ResetSession(s, browser).(initTimer := true);
    var t := t.(streamOut := Some(local), peer := Some(h));
    t.(pendingSignal := None, state := Initializing)
  }

  /** `peer.signal(data)` for a buffered signal, if there is one. */
  function Delivered(id: Id, h: Handle, pending: Option<Payload>): (e: seq<Effect>)
    ensures pending.None? ==> e == []
    ensures pending.Some? ==> e == [PeerSignalled(id, h, pending.value)]
  {
    if pending.Some? then [PeerSignalled(id, h, pending.value)] else []
  }

  /** Sends `request_offer` to `id` unless this side is the initiator. */
  function RequestOfferUnlessInitiator(m: Manager, id: Id): (r: Option<Signalling.Channel>)
    ensures IsInitiator(m.myId, id) || m.server.None? ==> r == m.server
    ensures !IsInitiator(m.myId, id) && m.server.Some? ==>
      r == Some(Signalling.RequestOffer(m.server.value, id))
  {
    if IsInitiator(m.myId, id) || m.server.None? then m.server
    else Some(Signalling.RequestOffer(m.server.value, id))
  }

  /**
   * `_initializing`: a full reset, then a fresh initializing timer, a
   * `request_offer` unless this side is the initiator, a new outbound stream
   * cloned from the local one and a new peer handle, delivery of any buffered signal to that handle,
   * and finally the Initializing state. Without a local stream nothing happens.
   */
  function EnterInitializing(m: Manager, id: Id): (r: Manager)
    ensures !m.haveStreamOut ==> r == m
    ensures m.haveStreamOut ==>
      && Get(r, id) == InitializingSession(Get(m, id), m.browser, m.nextHandle, LocalTracks(m))
      && OthersUnchanged(m, r, id)
      && r.nextHandle == m.nextHandle + 1
      && r.order == Record(m.order, id)
      && r.log == m.log + [StreamUpdate(id, Resetting)]
                + Delivered(id, m.nextHandle, Get(m, id).pendingSignal)
                + [StreamUpdate(id, Initializing)]
      && r.server == RequestOfferUnlessInitiator(m, id)
    ensures SameSettings(m, r)
  {
    if !m.haveStreamOut then m
    else
      var s := Get(m, id);
      var h := m.nextHandle;
      m.(sessions := m.sessions[id := InitializingSession(s, m.browser, h, LocalTracks(m))],
         order := Record(m.order, id),
         nextHandle := h + 1,
         server := RequestOfferUnlessInitiator(m, id),
         log := m.log + [StreamUpdate(id, Resetting)] + Delivered(id, h, s.pendingSignal)
                + [StreamUpdate(id, Initializing)])
  }

  /** `_notTracking`: a full reset that settles in NotTracking. */
  function EnterNotTracking(m: Manager, id: Id): (r: Manager)
    ensures Get(r, id) == ResetSession(Get(m, id), m.browser).(state := NotTracking)
    ensures OthersUnchanged(m, r, id)
    ensures r.log == m.log + [StreamUpdate(id, Resetting), StreamUpdate(id, NotTracking)]
    ensures SameSettings(m, r) && r.order == Record(m.order, id)
    ensures r.nextHandle == m.nextHandle && r.server == m.server
  {
    var t := ResetSession(Get(m, id), m.browser).(state := NotTracking);
    Put(m, id, t).(order := Record(m.order, id),
                   log := m.log + [StreamUpdate(id, Resetting), StreamUpdate(id, NotTracking)])
  }

  /**
   * The session `_streaming` leaves behind: state Streaming, no timer, an
   * inbound stream, and each outbound track enabled exactly when its kind's
   * intent and global switch are both on.
   */
  function StreamingSession(s: Session, global: Flags): (t: Session)
    ensures t.state == Streaming && t.streamIn && !t.initTimer && !t.brokenTimer
    ensures t.peer == s.peer && t.pendingSignal == s.pendingSignal && t.enabled == s.enabled
    ensures s.streamOut.Some? <==> t.streamOut.Some?
    ensures t.streamOut.Some? ==> forall k :: t.streamOut.value.Get(k) == (s.enabled.Get(k) && global.Get(k))
  {
    var t := ClearTimeouts(s.(state := Streaming)).(streamIn := true);
    t.(streamOut := if s.streamOut.Some? then Some(Both(s.enabled, global)) else None)
  }

  /** `_streaming`: fires Streaming, settles the session, and fires `streamIn`. */
  function EnterStreaming(m: Manager, id: Id): (r: Manager)
    ensures Get(r, id) == StreamingSession(Get(m, id), m.global) && OthersUnchanged(m, r, id)
    ensures r.log == m.log + [StreamUpdate(id, Streaming), StreamIn(id)]
    ensures SameSettings(m, r) && r.order == Record(m.order, id)
    ensures r.nextHandle == m.nextHandle && r.server == m.server
  {
    Put(m, id, StreamingSession(Get(m, id), m.global))
      .(order := Record(m.order, id), log := m.log + [StreamUpdate(id, Streaming), StreamIn(id)])
  }

  /** The session `_broken` leaves behind: state Broken with exactly the broken timer armed. */
  function BrokenSession(s: Session): (t: Session)
    ensures t.state == Broken && !t.initTimer && t.brokenTimer
    ensures t.(state := s.state, initTimer := s.initTimer, brokenTimer := s.brokenTimer) == s
  {
    ClearTimeouts(s.(state := Broken)).(brokenTimer := true)
  }

  /** `_broken`: fires Broken and settles the session. */
  function EnterBroken(m: Manager, id: Id): (r: Manager)
    ensures Get(r, id) == BrokenSession(Get(m, id)) && OthersUnchanged(m, r, id)
    ensures r.log == m.log + [StreamUpdate(id, Broken)]
    ensures SameSettings(m, r) && r.order == Record(m.order, id)
    ensures r.nextHandle == m.nextHandle && r.server == m.server
  {
    Put(m, id, BrokenSession(Get(m, id)))
      .(order := Record(m.order, id), log := m.log + [StreamUpdate(id, Broken)])
  }

  // ---------------------------------------------------------------------
  // Public calls

  /**
   * `addVideo(id)`: queued before the local stream is ready; afterwards a
   * no-op unless `id` is NotTracking, in which case both intents are switched
   * on and the session is initialized.
   */
  function AddVideo(m: Manager, id: Id): (r: Manager)
    ensures !m.ready ==> r == m.(pendingActions := m.pendingActions + [Add(id)])
    ensures m.ready && StateOf(m, id) != NotTracking ==> r == m
    ensures m.ready && StateOf(m, id) == NotTracking ==>
      r == EnterInitializing(Put(m, id, Get(m, id).(enabled := AllOn)), id)
    ensures m.ready && m.haveStreamOut && StateOf(m, id) == NotTracking ==>
      && StateOf(r, id) == Initializing && Get(r, id).enabled == AllOn
      && IsLive(r, id, m.nextHandle) && Get(r, id).streamOut == Some(LocalTracks(m))
  {
    if !m.ready then m.(pendingActions := m.pendingActions + [Add(id)])
    else if StateOf(m, id) != NotTracking then m
    else EnterInitializing(Put(m, id, Get(m, id).(enabled := AllOn)), id)
  }

  /**
   * `removeVideo(id)`: queued before the local stream is ready; afterwards a
   * no-op that fires nothing when `id` is NotTracking, and otherwise switches
   * both intents off and tears the session down to NotTracking.
   */
  function RemoveVideo(m: Manager, id: Id): (r: Manager)
    ensures !m.ready ==> r == m.(pendingActions := m.pendingActions + [Remove(id)])
    ensures m.ready && StateOf(m, id) == NotTracking ==> r == m
    ensures m.ready && StateOf(m, id) != NotTracking ==>
      r == EnterNotTracking(Put(m, id, Get(m, id).(enabled := Flags(false, false))), id)
    ensures m.ready && StateOf(m, id) != NotTracking ==>
      && StateOf(r, id) == NotTracking && Get(r, id).enabled == Flags(false, false)
      && Get(r, id).peer.None? && !Get(r, id).streamIn
      && r.log == m.log + [StreamUpdate(id, Resetting), StreamUpdate(id, NotTracking)]
  {
    if !m.ready then m.(pendingActions := m.pendingActions + [Remove(id)])
    else if StateOf(m, id) == NotTracking then m
    else EnterNotTracking(Put(m, id, Get(m, id).(enabled := Flags(false, false))), id)
  }

  /** `removeVideo` for each id in turn. */
  function RemoveEach(m: Manager, ids: seq<Id>): Manager
    decreases |ids|
  {
    if ids == [] then m else RemoveEach(RemoveVideo(m, ids[0]), ids[1..])
  }

  /** `removeAll()`: `removeVideo` for every id that was ever assigned a state, oldest first. */
  function RemoveAll(m: Manager): Manager {
    RemoveEach(m, m.order)
  }

  /**
   * One session under `setMuteVideo` / `setMuteAudio` given the global switch
   * of that kind: the intent becomes `!muted`, and the outbound tracks of that
   * kind, if there are any, become enabled exactly when the intent and the
   * switch are both on. The other kind and the rest of the session stay.
   */
  function MuteSession(s: Session, k: Kind, muted: bool, global: bool): (t: Session)
    ensures t.enabled.Get(k) == !muted && t.enabled.Get(OtherKind(k)) == s.enabled.Get(OtherKind(k))
    ensures s.streamOut.Some? <==> t.streamOut.Some?
    ensures t.streamOut.Some? ==>
      && t.streamOut.value.Get(k) == (!muted && global)
      && t.streamOut.value.Get(OtherKind(k)) == s.streamOut.value.Get(OtherKind(k))
    ensures t.(enabled := s.enabled, streamOut := s.streamOut) == s
  {
    var t := s.(enabled := s.enabled.Set(k, !muted));
    if t.streamOut.Some? then t.(streamOut := Some(t.streamOut.value.Set(k, !muted && global))) else t
  }

  /** `setMuteVideo(id, muted)` / `setMuteAudio(id, muted)`. */
  function SetMute(m: Manager, k: Kind, id: Id, muted: bool): (r: Manager)
    ensures Get(r, id) == MuteSession(Get(m, id), k, muted, m.global.Get(k))
    ensures OthersUnchanged(m, r, id)
    ensures SameSettings(m, r) && r.order == m.order && r.nextHandle == m.nextHandle
    ensures r.server == m.server && r.log == m.log
  {
    Put(m, id, MuteSession(Get(m, id), k, muted, m.global.Get(k)))
  }

  /** The `setMuteVideo` / `setMuteAudio` that the `All` loop makes for one id. */
  function MuteIfSending(s: Session, k: Kind, muted: bool): (t: Session)
    ensures s.streamOut.None? ==> t == s
    ensures s.streamOut.Some? ==> t == MuteSession(s, k, muted, !muted)
  {
    if s.streamOut.Some? then MuteSession(s, k, muted, !muted) else s
  }

  /**
   * `setMuteVideoAll` / `setMuteAudioAll`: the global switch becomes `!muted`,
   * then every id with an outbound stream gets the per-id call, then one
   * `mutedVideo` / `mutedAudio` fires. Ids without an outbound stream keep
   * even their intent.
   */
  function SetMuteAll(m: Manager, k: Kind, muted: bool): (r: Manager)
    ensures r.global.Get(k) == !muted && r.global.Get(OtherKind(k)) == m.global.Get(OtherKind(k))
    ensures forall id :: Get(r, id) == MuteIfSending(Get(m, id), k, muted)
    ensures forall id | Get(m, id).streamOut.Some? ::
      && Get(r, id).enabled.Get(k) == !muted && Get(r, id).streamOut.Some?
      && Get(r, id).streamOut.value.Get(k) == !muted
    ensures forall id | Get(m, id).streamOut.None? :: Get(r, id) == Get(m, id)
    ensures r.log == m.log + [Muted(k, muted)]
    ensures r == m.(global := r.global, sessions := r.sessions, log := r.log)
  {
    var sessions := map id | id in m.sessions :: MuteIfSending(m.sessions[id], k, muted);
    m.(global := m.global.Set(k, !muted), sessions := sessions, log := m.log + [Muted(k, muted)])
  }

  /** `assertControl()`: queued before the local stream is ready, then one `assert_control`. */
  function AssertControl(m: Manager): (r: Manager)
    ensures !m.ready ==> r == m.(pendingActions := m.pendingActions + [Control])
    ensures m.ready && m.server.Some? ==> r == m.(server := Some(Signalling.AssertControl(m.server.value)))
    ensures m.ready && m.server.None? ==> r == m
  {
    if !m.ready then m.(pendingActions := m.pendingActions + [Control])
    else if m.server.None? then m
    else m.(server := Some(Signalling.AssertControl(m.server.value)))
  }

  /** Replays one queued call. */
  function Perform(m: Manager, a: Action): Manager {
    match a
    case Add(id) => AddVideo(m, id)
    case Remove(id) => RemoveVideo(m, id)
    case Control => AssertControl(m)
  }

  /** Makes the calls `acts`, first to last. */
  function Run(m: Manager, acts: seq<Action>): Manager
    decreases |acts|
  {
    if acts == [] then m else Run(Perform(m, acts[0]), acts[1..])
  }

  // ---------------------------------------------------------------------
  // Starting up

  /**
   * `initialize(uuid, config)` with the re-initialization branch firing the
   * existing outbound stream, as it evidently means to: a second call changes
   * nothing but fires `streamOut` again; without a capture capability it
   * does nothing; otherwise it records the local id, creates the signalling
   * channel and starts one capture.
   */
  function Initialize(m: Manager, uuid: string, uid: Id): (r: Manager)
    ensures m.initialized ==> r == m.(log := m.log + [StreamOut])
    ensures !m.initialized && !m.hasMediaDevices ==> r == m
    ensures !m.initialized && m.hasMediaDevices ==>
      && r.initialized && r.myId == uid && r.captures == m.captures + 1
      && r.server == Some(Signalling.Create(uuid))
      && r.sessions == m.sessions && r.ready == m.ready && r.log == m.log
      && r == m.(myId := uid, initialized := true, server := r.server, captures := m.captures + 1)
  {
    if m.initialized then m.(log := m.log + [StreamOut])
    else if !m.hasMediaDevices then m
    else m.(myId := uid, initialized := true, server := Some(Signalling.Create(uuid)),
            captures := m.captures + 1)
  }

  /** What `initialize` throws on its re-initialization branch. */
  datatype JsError = ReferenceError(name: string)

  /**
   * `initialize` as written: the re-initialization branch passes an
   * undeclared `streamOut`, so a second call throws before firing anything.
   */
  function InitializeAsWritten(m: Manager, uuid: string, uid: Id): (r: Result<Manager, JsError>)
    ensures m.initialized ==> r == Failure(ReferenceError("streamOut"))
    ensures !m.initialized ==> r == Success(Initialize(m, uuid, uid))
  {
    if m.initialized then Failure(ReferenceError("streamOut"))
    else Success(Initialize(m, uuid, uid))
  }

  /**
   * A successful capture: the stream is recorded under the local id,
   * `streamOut` fires, the manager becomes ready and the calls queued before
   * then are replayed first to last, leaving the queue empty. (Clearing the
   * queue before the replay instead of after is the same: with `ready` set,
   * no replayed call queues anything.)
   */
  function OnCaptureSucceeded(m: Manager): (r: Manager)
    ensures m.captures == 0 ==> r == m
  {
    if m.captures == 0 then m
    else
      var m1 := Put(m, m.myId, Get(m, m.myId).(streamOut := Some(AllOn)));
      var m2 := m1.(captures := m.captures - 1, haveStreamOut := true,
                    log := m.log + [StreamOut], ready := true, pendingActions := []);
      Run(m2, m.pendingActions)
  }

  /** A captured track ended: capture is started again. */
  function OnLocalTrackEnded(m: Manager): (r: Manager)
    ensures m.haveStreamOut ==> r == m.(captures := m.captures + 1)
    ensures !m.haveStreamOut ==> r == m
  {
    if m.haveStreamOut then m.(captures := m.captures + 1) else m
  }

  // ---------------------------------------------------------------------
  // Events

  /** Buffers `data` as the signal of `id`, replacing any older one. */
  function Buffer(m: Manager, id: Id, data: Payload): (r: Manager)
    ensures Get(r, id) == Get(m, id).(pendingSignal := Some(data)) && OthersUnchanged(m, r, id)
    ensures SameSettings(m, r) && r.order == m.order && r.nextHandle == m.nextHandle
    ensures r.server == m.server && r.log == m.log
  {
    Put(m, id, Get(m, id).(pendingSignal := Some(data)))
  }

  /** `peer.signal(data)` on the handle `peer`, if there is one. */
  function SignalPeer(id: Id, peer: Option<Handle>, data: Payload): (e: seq<Effect>)
    ensures peer.None? ==> e == []
    ensures peer.Some? ==> e == [PeerSignalled(id, peer.value, data)]
  {
    if peer.Some? then [PeerSignalled(id, peer.value, data)] else []
  }

  /** Hands `data` to the live peer handle of `id` and re-arms only the initializing timer. */
  function Forward(m: Manager, id: Id, data: Payload): (r: Manager)
    ensures Get(r, id) == ClearTimeouts(Get(m, id)).(initTimer := true) && OthersUnchanged(m, r, id)
    ensures r.log == m.log + SignalPeer(id, Get(m, id).peer, data)
    ensures SameSettings(m, r) && r.order == m.order && r.nextHandle == m.nextHandle
    ensures r.server == m.server
  {
    var s := Get(m, id);
    Put(m, id, ClearTimeouts(s).(initTimer := true)).(log := m.log + SignalPeer(id, s.peer, data))
  }

  /**
   * The channel's `message` listener. A `signal` is forwarded to the peer and
   * re-arms the timer while Initializing, is buffered (replacing any older
   * one) while NotTracking or Resetting, and is buffered and then consumed
   * by a restart while Streaming or Broken. A `request_offer` restarts only a
   * Streaming or Broken session.
   */
  function OnServerMessage(m: Manager, msg: Signalling.Message): (r: Manager)
    ensures msg.SignalFrom? && StateOf(m, msg.from) == Initializing ==> r == Forward(m, msg.from, msg.data)
    ensures msg.SignalFrom? && (StateOf(m, msg.from) == NotTracking || StateOf(m, msg.from) == Resetting) ==>
      r == Buffer(m, msg.from, msg.data)
    ensures msg.SignalFrom? && Receiving(StateOf(m, msg.from)) ==>
      r == EnterInitializing(Buffer(m, msg.from, msg.data), msg.from)
    ensures msg.RequestOfferFrom? && Receiving(StateOf(m, msg.from)) ==> r == EnterInitializing(m, msg.from)
    ensures msg.RequestOfferFrom? && !Receiving(StateOf(m, msg.from)) ==> r == m
    ensures msg.SignalFrom? && StateOf(m, msg.from) == Initializing ==>
      && r.log == m.log + SignalPeer(msg.from, Get(m, msg.from).peer, msg.data)
      && Get(r, msg.from).peer == Get(m, msg.from).peer && Get(r, msg.from).initTimer
    ensures msg.SignalFrom? && StateOf(m, msg.from) == NotTracking ==>
      && Get(r, msg.from).pendingSignal == Some(msg.data) && StateOf(r, msg.from) == NotTracking
      && r.log == m.log
  {
    match msg
    case SignalFrom(from, data) =>
      var st := StateOf(m, from);
      if st == Initializing then Forward(m, from, data)
      else if st == Resetting || st == NotTracking then Buffer(m, from, data)
      else EnterInitializing(Buffer(m, from, data), from)
    case RequestOfferFrom(from) =>
      if Receiving(StateOf(m, from)) then EnterInitializing(m, from) else m
  }

  /** The peer's `stream` event: only the live handle's listener is attached. */
  function OnPeerStream(m: Manager, id: Id, h: Handle): (r: Manager)
    ensures !IsLive(m, id, h) ==> r == m
    ensures IsLive(m, id, h) ==> r == EnterStreaming(m, id)
    ensures IsLive(m, id, h) ==>
      && StateOf(r, id) == Streaming && Get(r, id).streamIn && IsLive(r, id, h)
      && r.log == m.log + [StreamUpdate(id, Streaming), StreamIn(id)]
  {
    if IsLive(m, id, h) then EnterStreaming(m, id) else m
  }

  /** The peer's `close` event: the session restarts at once. */
  function OnPeerClose(m: Manager, id: Id, h: Handle): (r: Manager)
    ensures !IsLive(m, id, h) ==> r == m
    ensures IsLive(m, id, h) ==> r == EnterInitializing(m, id)
    ensures IsLive(m, id, h) && m.haveStreamOut ==>
      && StateOf(r, id) == Initializing && IsLive(r, id, m.nextHandle)
      && (Get(m, id).pendingSignal.None? ==>
            r.log == m.log + [StreamUpdate(id, Resetting), StreamUpdate(id, Initializing)])
  {
    if IsLive(m, id, h) then EnterInitializing(m, id) else m
  }

  /** The peer's `signal` event: the descriptor goes out through the channel. */
  function OnPeerSignal(m: Manager, id: Id, h: Handle, data: Payload): (r: Manager)
    ensures IsLive(m, id, h) && m.server.Some? ==>
      r == m.(server := Some(Signalling.Signal(m.server.value, id, data)))
    ensures !IsLive(m, id, h) || m.server.None? ==> r == m
    ensures r == m.(server := r.server)
  {
    if IsLive(m, id, h) && m.server.Some?
    then m.(server := Some(Signalling.Signal(m.server.value, id, data)))
    else m
  }

  /** An inbound video track's `mute`: only a Streaming session breaks. */
  function OnTrackMute(m: Manager, id: Id): (r: Manager)
    ensures StateOf(m, id) == Streaming ==> r == EnterBroken(m, id)
    ensures StateOf(m, id) != Streaming ==> r == m
    ensures StateOf(m, id) == Streaming ==>
      && StateOf(r, id) == Broken && Get(r, id).brokenTimer && !Get(r, id).initTimer
      && Get(r, id).peer == Get(m, id).peer && r.log == m.log + [StreamUpdate(id, Broken)]
  {
    if StateOf(m, id) == Streaming then EnterBroken(m, id) else m
  }

  /**
   * An inbound video track's `unmute`: the broken timer is cleared whatever
   * the state, and only a Broken session returns to Streaming.
   */
  function OnTrackUnmute(m: Manager, id: Id): (r: Manager)
    ensures !Get(r, id).brokenTimer && OthersUnchanged(m, r, id)
    ensures Get(r, id).(brokenTimer := Get(m, id).brokenTimer, state := Get(m, id).state) == Get(m, id)
    ensures StateOf(m, id) == Broken ==>
      StateOf(r, id) == Streaming && r.log == m.log + [StreamUpdate(id, Streaming)]
    ensures StateOf(m, id) != Broken ==> StateOf(r, id) == StateOf(m, id) && r.log == m.log
  {
    var m1 := Put(m, id, Get(m, id).(brokenTimer := false));
    if StateOf(m, id) == Broken then SetState(m1, id, Streaming) else m1
  }

  /** The initializing timer: a session that did not reach Streaming in time restarts. */
  function OnInitializingTimeout(m: Manager, id: Id): (r: Manager)
    ensures !Get(m, id).initTimer ==> r == m
    ensures Get(m, id).initTimer ==>
      r == EnterInitializing(Put(m, id, Get(m, id).(initTimer := false)), id)
    ensures Get(m, id).initTimer && m.haveStreamOut ==>
      && StateOf(r, id) == Initializing && Get(r, id).initTimer && !Get(r, id).brokenTimer
      && IsLive(r, id, m.nextHandle) && r.nextHandle == m.nextHandle + 1
  {
    if !Get(m, id).initTimer then m
    else EnterInitializing(Put(m, id, Get(m, id).(initTimer := false)), id)
  }

  /** The broken timer: a session that stayed Broken restarts. */
  function OnBrokenTimeout(m: Manager, id: Id): (r: Manager)
    ensures !Get(m, id).brokenTimer ==> r == m
    ensures Get(m, id).brokenTimer ==>
      r == EnterInitializing(Put(m, id, Get(m, id).(brokenTimer := false)), id)
    ensures Get(m, id).brokenTimer && m.haveStreamOut ==>
      && StateOf(r, id) == Initializing && Get(r, id).initTimer && !Get(r, id).brokenTimer
      && IsLive(r, id, m.nextHandle) && r.nextHandle == m.nextHandle + 1
  {
    if !Get(m, id).brokenTimer then m
    else EnterInitializing(Put(m, id, Get(m, id).(brokenTimer := false)), id)
  }

  /** A callback of the signalling channel, followed by its `message` listener. */
  function OnServerEvent(m: Manager, e: Signalling.Event): (r: Manager)
    ensures m.server.None? ==> r == m
    ensures m.server.Some? && Signalling.React(m.server.value, e).1.None? ==>
      r == m.(server := Some(Signalling.React(m.server.value, e).0))
  {
    if m.server.None? then m
    else
      var (c, msg) := Signalling.React(m.server.value, e);
      var m1 := m.(server := Some(c));
      if msg.Some? then OnServerMessage(m1, msg.value) else m1
  }

  datatype Input =
    | InitializeCall(uuid: string, uid: Id)
    | CaptureSucceeded
    | CaptureFailed
    | LocalTrackEnded
    | AddVideoCall(id: Id)
    | RemoveVideoCall(id: Id)
    | RemoveAllCall
    | SetMuteCall(kind: Kind, id: Id, muted: bool)
    | SetMuteAllCall(kind: Kind, muted: bool)
    | AssertControlCall
    | Server(event: Signalling.Event)
    | PeerStream(id: Id, peer: Handle)
    | PeerSignal(id: Id, peer: Handle, data: Payload)
    | PeerClose(id: Id, peer: Handle)
    | TrackMute(id: Id)
    | TrackUnmute(id: Id)
    | InitializingTimeout(id: Id)
    | BrokenTimeout(id: Id)

  function Step(m: Manager, i: Input): Manager {
    match i
    case InitializeCall(uuid, uid) => Initialize(m, uuid, uid)
    case CaptureSucceeded => OnCaptureSucceeded(m)
    case CaptureFailed => m  // retried at once: one request answered, another started
    case LocalTrackEnded => OnLocalTrackEnded(m)
    case AddVideoCall(id) => AddVideo(m, id)
    case RemoveVideoCall(id) => RemoveVideo(m, id)
    case RemoveAllCall => RemoveAll(m)
    case SetMuteCall(k, id, muted) => SetMute(m, k, id, muted)
    case SetMuteAllCall(k, muted) => SetMuteAll(m, k, muted)
    case AssertControlCall => AssertControl(m)
    case Server(e) => OnServerEvent(m, e)
    case PeerStream(id, h) => OnPeerStream(m, id, h)
    case PeerSignal(id, h, data) => OnPeerSignal(m, id, h, data)
    case PeerClose(id, h) => OnPeerClose(m, id, h)
    case TrackMute(id) => OnTrackMute(m, id)
    case TrackUnmute(id) => OnTrackUnmute(m, id)
    case InitializingTimeout(id) => OnInitializingTimeout(m, id)
    case BrokenTimeout(id) => OnBrokenTimeout(m, id)
  }

  /** Feeds the inputs in order. */
  function RunInputs(m: Manager, inputs: seq<Input>): Manager
    decreases |inputs|
  {
    if inputs == [] then m else RunInputs(Step(m, inputs[0]), inputs[1..])
  }
}

=== FILE: stream_manager_proofs.dfy ===
/**
 * Properties of the session orchestrator: the invariant every reachable
 * manager keeps, and what the public calls, the replay of queued calls, the
 * signal routing and the mute switches promise.
 */
module StreamManagerProofs {
  import opened Wrappers
  import opened StringOrder
  import Signalling
  import opened StreamManager

  // ---------------------------------------------------------------------
  // The invariant

  /**
   * What holds of every session between two inputs. Resetting is only ever
   * seen inside a step; a session holds a peer handle exactly in the states
   * that own one, and that handle was issued before; exactly the timer of its
   * state is armed; it has an inbound stream exactly while Streaming or
   * Broken; a session with a peer has an outbound stream; only a NotTracking
   * session keeps a buffered signal; and nothing leaves NotTracking before
   * the local stream exists.
   */
  predicate SessionOk(s: Session, haveStreamOut: bool, nextHandle: nat) {
    && s.state != Resetting
    && (s.peer.Some? <==> OwnsPeer(s.state))
    && (s.peer.Some? ==> s.peer.value < nextHandle)
    && (s.initTimer <==> s.state == Initializing)
    && (s.brokenTimer <==> s.state == Broken)
    && (s.streamIn <==> Receiving(s.state))
    && (OwnsPeer(s.state) ==> s.streamOut.Some?)
    && (s.pendingSignal.Some? ==> s.state == NotTracking)
    && (s.state != NotTracking ==> haveStreamOut)
  }

  /** The parts of the invariant that do not concern single sessions. */
  predicate GlobalOk(m: Manager) {
    && (m.ready <==> m.haveStreamOut)
    && (m.ready ==> m.pendingActions == [])
    && (m.initialized <==> m.server.Some?)
    && (m.captures > 0 || m.haveStreamOut ==> m.initialized)
    && (m.server.Some? ==> Signalling.Valid(m.server.value))
  }

  /** Every stored session is well formed, and every id out of NotTracking is in `order`. */
  predicate SessionsOk(m: Manager) {
    && (forall id | id in m.sessions :: SessionOk(m.sessions[id], m.haveStreamOut, m.nextHandle))
    && (forall id | id in m.sessions && m.sessions[id].state != NotTracking :: id in m.order)
  }

  predicate Valid(m: Manager) {
    GlobalOk(m) && SessionsOk(m)
  }

  lemma IdleOk(haveStreamOut: bool, nextHandle: nat)
    ensures SessionOk(Idle, haveStreamOut, nextHandle)
  {
  }

  /** What the invariant says of one id, stored or not. */
  lemma {:induction false} ValidAt(m: Manager, id: Id)
    requires SessionsOk(m)
    ensures SessionOk(Get(m, id), m.haveStreamOut, m.nextHandle)
    ensures StateOf(m, id) != NotTracking ==> id in m.order
  {
    if id !in m.sessions {
      IdleOk(m.haveStreamOut, m.nextHandle);
    }
  }

  /** The invariant at every id but `id`: the shape of a manager in the middle of a step. */
  predicate SessionsOkExcept(m: Manager, id: Id) {
    && (forall j | j in m.sessions && j != id :: SessionOk(m.sessions[j], m.haveStreamOut, m.nextHandle))
    && (forall j | j in m.sessions && j != id && m.sessions[j].state != NotTracking :: j in m.order)
  }

  lemma ExceptFromOk(m: Manager, id: Id)
    requires SessionsOk(m)
    ensures SessionsOkExcept(m, id)
  {
  }

  lemma {:induction false} ExceptAfterChange(m: Manager, r: Manager, id: Id)
    requires SessionsOkExcept(m, id) && OthersUnchanged(m, r, id)
    requires r.haveStreamOut == m.haveStreamOut && r.nextHandle == m.nextHandle && r.order == m.order
    ensures SessionsOkExcept(r, id)
  {
    forall j | j in r.sessions && j != id
      ensures SessionOk(r.sessions[j], r.haveStreamOut, r.nextHandle)
      ensures r.sessions[j].state != NotTracking ==> j in r.order
    {
      assert j in m.sessions && r.sessions[j] == m.sessions[j];
    }
  }

  /**
   * The invariant is restored by a change of one session, provided the new
   * session is well formed and recorded in `order` when out of NotTracking,
   * no handle number is taken back, the local stream is not lost, and
   * `order` only grows.
   */
  lemma {:induction false} SessionsOkAfterChange(m: Manager, r: Manager, id: Id)
    requires SessionsOkExcept(m, id) && OthersUnchanged(m, r, id)
    requires SessionOk(Get(r, id), r.haveStreamOut, r.nextHandle)
    requires Get(r, id).state != NotTracking ==> id in r.order
    requires m.nextHandle <= r.nextHandle
    requires m.haveStreamOut ==> r.haveStreamOut
    requires forall j :: j in m.order ==> j in r.order
    ensures SessionsOk(r)
  {
    forall j | j in r.sessions
      ensures SessionOk(r.sessions[j], r.haveStreamOut, r.nextHandle)
      ensures r.sessions[j].state != NotTracking ==> j in r.order
    {
      if j != id {
        assert j in m.sessions && r.sessions[j] == m.sessions[j];
      } else {
        assert r.sessions[j] == Get(r, id);
      }
    }
  }

  /** The constructor yields a valid manager. */
  lemma CreateValid(browser: bool, hasMediaDevices: bool)
    ensures Valid(Create(browser, hasMediaDevices))
  {
  }

  /** An id that was never assigned a state reads as NotTracking: the default of `states`. */
  lemma NeverAssignedIsNotTracking(m: Manager, id: Id)
    requires Valid(m) && id !in m.order
    ensures StateOf(m, id) == NotTracking
    ensures Get(m, id).peer.None? && !Get(m, id).streamIn
    ensures !Get(m, id).initTimer && !Get(m, id).brokenTimer
  {
    ValidAt(m, id);
  }

  // ---------------------------------------------------------------------
  // Each operation keeps the invariant

  /** The public calls of the channel keep its own invariant. */
  lemma ChannelCallsValid(c: Signalling.Channel, id: Id, data: Payload)
    requires Signalling.Valid(c)
    ensures Signalling.Valid(Signalling.RequestOffer(c, id))
    ensures Signalling.Valid(Signalling.AssertControl(c))
    ensures Signalling.Valid(Signalling.Signal(c, id, data))
  {
    Signalling.StepPreservesValid(c, Signalling.Call(Signalling.RequestOfferCall(id)));
    Signalling.StepPreservesValid(c, Signalling.Call(Signalling.AssertControlCall));
    Signalling.StepPreservesValid(c, Signalling.Call(Signalling.SignalCall(id, data)));
  }

  lemma EnterInitializingValid(m: Manager, id: Id)
    requires GlobalOk(m) && SessionsOkExcept(m, id) && m.haveStreamOut
    ensures Valid(EnterInitializing(m, id))
  {
    var r := EnterInitializing(m, id);
    if m.server.Some? {
      ChannelCallsValid(m.server.value, id, "");
    }
    SessionsOkAfterChange(m, r, id);
  }

  lemma EnterNotTrackingValid(m: Manager, id: Id)
    requires GlobalOk(m) && SessionsOkExcept(m, id)
    ensures Valid(EnterNotTracking(m, id))
  {
    SessionsOkAfterChange(m, EnterNotTracking(m, id), id);
  }

  lemma EnterStreamingValid(m: Manager, id: Id)
    requires Valid(m) && Get(m, id).peer.Some?
    ensures Valid(EnterStreaming(m, id))
  {
    ValidAt(m, id);
    ExceptFromOk(m, id);
    SessionsOkAfterChange(m, EnterStreaming(m, id), id);
  }

  lemma EnterBrokenValid(m: Manager, id: Id)
    requires Valid(m) && StateOf(m, id) == Streaming
    ensures Valid(EnterBroken(m, id))
  {
    ValidAt(m, id);
    ExceptFromOk(m, id);
    SessionsOkAfterChange(m, EnterBroken(m, id), id);
  }

  /** A change of one session that the invariant allows at that id keeps the invariant. */
  lemma {:induction false} PutValid(m: Manager, id: Id, t: Session)
    requires Valid(m)
    requires SessionOk(t, m.haveStreamOut, m.nextHandle)
    requires t.state != NotTracking ==> id in m.order
    ensures Valid(Put(m, id, t))
  {
    ExceptFromOk(m, id);
    SessionsOkAfterChange(m, Put(m, id, t), id);
  }

  /** A change of one session's intents, on the way into a transition. */
  lemma {:induction false} ExceptAfterPut(m: Manager, id: Id, t: Session)
    requires SessionsOk(m)
    ensures SessionsOkExcept(Put(m, id, t), id)
  {
    ExceptFromOk(m, id);
    ExceptAfterChange(m, Put(m, id, t), id);
  }

  lemma AddVideoValid(m: Manager, id: Id)
    requires Valid(m)
    ensures Valid(AddVideo(m, id))
  {
    if m.ready && StateOf(m, id) == NotTracking {
      ExceptAfterPut(m, id, Get(m, id).(enabled := AllOn));
      EnterInitializingValid(Put(m, id, Get(m, id).(enabled := AllOn)), id);
    }
  }

  lemma RemoveVideoValid(m: Manager, id: Id)
    requires Valid(m)
    ensures Valid(RemoveVideo(m, id))
  {
    if m.ready && StateOf(m, id) != NotTracking {
      ExceptAfterPut(m, id, Get(m, id).(enabled := Flags(false, false)));
      EnterNotTrackingValid(Put(m, id, Get(m, id).(enabled := Flags(false, false))), id);
    }
  }

  lemma {:induction false} RemoveEachValid(m: Manager, ids: seq<Id>)
    requires Valid(m)
    ensures Valid(RemoveEach(m, ids))
    decreases |ids|
  {
    if ids != [] {
      RemoveVideoValid(m, ids[0]);
      RemoveEachValid(RemoveVideo(m, ids[0]), ids[1..]);
    }
  }

  lemma AssertControlValid(m: Manager)
    requires Valid(m)
    ensures Valid(AssertControl(m))
  {
    if m.ready && m.server.Some? {
      ChannelCallsValid(m.server.value, "", "");
    }
  }

  lemma PerformValid(m: Manager, a: Action)
    requires Valid(m)
    ensures Valid(Perform(m, a))
  {
    match a
    case Add(id) => AddVideoValid(m, id);
    case Remove(id) => RemoveVideoValid(m, id);
    case Control => AssertControlValid(m);
  }

  lemma {:induction false} RunValid(m: Manager, acts: seq<Action>)
    requires Valid(m)
    ensures Valid(Run(m, acts))
    decreases |acts|
  {
    if acts != [] {
      PerformValid(m, acts[0]);
      RunValid(Perform(m, acts[0]), acts[1..]);
    }
  }

  lemma SetMuteValid(m: Manager, k: Kind, id: Id, muted: bool)
    requires Valid(m)
    ensures Valid(SetMute(m, k, id, muted))
  {
    ValidAt(m, id);
    PutValid(m, id, MuteSession(Get(m, id), k, muted, m.global.Get(k)));
  }

  lemma {:induction false} SetMuteAllValid(m: Manager, k: Kind, muted: bool)
    requires Valid(m)
    ensures Valid(SetMuteAll(m, k, muted))
  {
    var r := SetMuteAll(m, k, muted);
    forall id | id in r.sessions
      ensures SessionOk(r.sessions[id], r.haveStreamOut, r.nextHandle)
      ensures r.sessions[id].state != NotTracking ==> id in r.order
    {
      assert id in m.sessions && r.sessions[id] == MuteIfSending(m.sessions[id], k, muted);
    }
  }

  lemma InitializeValid(m: Manager, uuid: string, uid: Id)
    requires Valid(m)
    ensures Valid(Initialize(m, uuid, uid))
  {
  }

  lemma OnCaptureSucceededValid(m: Manager)
    requires Valid(m)
    ensures Valid(OnCaptureSucceeded(m))
  {
    if m.captures > 0 {
      ValidAt(m, m.myId);
      var m1 := Put(m, m.myId, Get(m, m.myId).(streamOut := Some(AllOn)));
      PutValid(m, m.myId, Get(m, m.myId).(streamOut := Some(AllOn)));
      var m2 := m1.(captures := m.captures - 1, haveStreamOut := true,
                    log := m.log + [StreamOut], ready := true, pendingActions := []);
      forall id | id in m2.sessions
        ensures SessionOk(m2.sessions[id], m2.haveStreamOut, m2.nextHandle)
      {
        assert SessionOk(m1.sessions[id], m1.haveStreamOut, m1.nextHandle);
      }
      RunValid(m2, m.pendingActions);
    }
  }

  lemma OnLocalTrackEndedValid(m: Manager)
    requires Valid(m)
    ensures Valid(OnLocalTrackEnded(m))
  {
  }

  lemma OnServerMessageValid(m: Manager, msg: Signalling.Message)
    requires Valid(m)
    ensures Valid(OnServerMessage(m, msg))
  {
    var id := msg.from;
    ValidAt(m, id);
    var st := StateOf(m, id);
    match msg
    case SignalFrom(_, data) =>
      if st == Initializing {
        PutValid(m, id, ClearTimeouts(Get(m, id)).(initTimer := true));
      } else if st == NotTracking || st == Resetting {
        PutValid(m, id, Get(m, id).(pendingSignal := Some(data)));
      } else {
        ExceptAfterPut(m, id, Get(m, id).(pendingSignal := Some(data)));
        EnterInitializingValid(Buffer(m, id, data), id);
      }
    case RequestOfferFrom(_) =>
      if Receiving(st) {
        ExceptFromOk(m, id);
        EnterInitializingValid(m, id);
      }
  }

  lemma OnServerEventValid(m: Manager, e: Signalling.Event)
    requires Valid(m)
    ensures Valid(OnServerEvent(m, e))
  {
    if m.server.Some? {
      Signalling.StepPreservesValid(m.server.value, Signalling.Env(e));
      var (c, msg) := Signalling.React(m.server.value, e);
      var m1 := m.(server := Some(c));
      assert Valid(m1);
      if msg.Some? {
        OnServerMessageValid(m1, msg.value);
      }
    }
  }

  lemma PeerEventsValid(m: Manager, id: Id, h: Handle, data: Payload)
    requires Valid(m)
    ensures Valid(OnPeerStream(m, id, h))
    ensures Valid(OnPeerClose(m, id, h))
    ensures Valid(OnPeerSignal(m, id, h, data))
  {
    ValidAt(m, id);
    if IsLive(m, id, h) {
      EnterStreamingValid(m, id);
      ExceptFromOk(m, id);
      EnterInitializingValid(m, id);
      if m.server.Some? {
        ChannelCallsValid(m.server.value, id, data);
      }
    }
  }

  lemma TrackMuteValid(m: Manager, id: Id)
    requires Valid(m)
    ensures Valid(OnTrackMute(m, id))
  {
    if StateOf(m, id) == Streaming {
      EnterBrokenValid(m, id);
    }
  }

  lemma TrackUnmuteValid(m: Manager, id: Id)
    requires Valid(m)
    ensures Valid(OnTrackUnmute(m, id))
  {
    ValidAt(m, id);
    var t := Get(m, id).(brokenTimer := false);
    var m1 := Put(m, id, t);
    if StateOf(m, id) == Broken {
      ExceptAfterPut(m, id, t);
      SessionsOkAfterChange(m1, SetState(m1, id, Streaming), id);
    } else {
      assert t == Get(m, id);
      PutValid(m, id, t);
    }
  }

  lemma TimeoutsValid(m: Manager, id: Id)
    requires Valid(m)
    ensures Valid(OnInitializingTimeout(m, id))
    ensures Valid(OnBrokenTimeout(m, id))
  {
    ValidAt(m, id);
    if Get(m, id).initTimer {
      ExceptAfterPut(m, id, Get(m, id).(initTimer := false));
      EnterInitializingValid(Put(m, id, Get(m, id).(initTimer := false)), id);
    }
    if Get(m, id).brokenTimer {
      ExceptAfterPut(m, id, Get(m, id).(brokenTimer := false));
      EnterInitializingValid(Put(m, id, Get(m, id).(brokenTimer := false)), id);
    }
  }

  /** Every input keeps the invariant. */
  lemma StepPreservesValid(m: Manager, i: Input)
    requires Valid(m)
    ensures Valid(Step(m, i))
  {
    if i.Server? || i.PeerStream? || i.PeerSignal? || i.PeerClose? || i.TrackMute? || i.TrackUnmute?
       || i.InitializingTimeout? || i.BrokenTimeout? {
      EventPreservesValid(m, i);
    } else {
      CallPreservesValid(m, i);
    }
  }

  lemma CallPreservesValid(m: Manager, i: Input)
    requires Valid(m)
    requires !(i.Server? || i.PeerStream? || i.PeerSignal? || i.PeerClose? || i.TrackMute? || i.TrackUnmute?
               || i.InitializingTimeout? || i.BrokenTimeout?)
    ensures Valid(Step(m, i))
  {
    match i
    case InitializeCall(uuid, uid) => InitializeValid(m, uuid, uid);
    case CaptureSucceeded => OnCaptureSucceededValid(m);
    case CaptureFailed =>
    case LocalTrackEnded => OnLocalTrackEndedValid(m);
    case AddVideoCall(id) => AddVideoValid(m, id);
    case RemoveVideoCall(id) => RemoveVideoValid(m, id);
    case RemoveAllCall => RemoveEachValid(m, m.order);
    case SetMuteCall(k, id, muted) => SetMuteValid(m, k, id, muted);
    case SetMuteAllCall(k, muted) => SetMuteAllValid(m, k, muted);
    case AssertControlCall => AssertControlValid(m);
  }

  lemma EventPreservesValid(m: Manager, i: Input)
    requires Valid(m)
    requires i.Server? || i.PeerStream? || i.PeerSignal? || i.PeerClose? || i.TrackMute? || i.TrackUnmute?
             || i.InitializingTimeout? || i.BrokenTimeout?
    ensures Valid(Step(m, i))
  {
    match i
    case Server(e) => OnServerEventValid(m, e);
    case PeerStream(id, h) => PeerEventsValid(m, id, h, "");
    case PeerSignal(id, h, data) => PeerEventsValid(m, id, h, data);
    case PeerClose(id, h) => PeerEventsValid(m, id, h, "");
    case _ => LocalEventPreservesValid(m, i);
  }

  lemma LocalEventPreservesValid(m: Manager, i: Input)
    requires Valid(m)
    requires i.TrackMute? || i.TrackUnmute? || i.InitializingTimeout? || i.BrokenTimeout?
    ensures Valid(Step(m, i))
  {
    match i
    case TrackMute(id) => TrackMuteValid(m, id);
    case TrackUnmute(id) => TrackUnmuteValid(m, id);
    case InitializingTimeout(id) => TimeoutsValid(m, id);
    case BrokenTimeout(id) => TimeoutsValid(m, id);
  }

  /** Every run of inputs from a valid manager ends in a valid manager. */
  lemma {:induction false} RunInputsValid(m: Manager, inputs: seq<Input>)
    requires Valid(m)
    ensures Valid(RunInputs(m, inputs))
    decreases |inputs|
  {
    if inputs != [] {
      StepPreservesValid(m, inputs[0]);
      RunInputsValid(Step(m, inputs[0]), inputs[1..]);
    }
  }

  /** Every manager reached from the constructor is valid. */
  lemma ReachableValid(browser: bool, hasMediaDevices: bool, inputs: seq<Input>)
    ensures Valid(RunInputs(Create(browser, hasMediaDevices), inputs))
  {
    CreateValid(browser, hasMediaDevices);
    RunInputsValid(Create(browser, hasMediaDevices), inputs);
  }

  // ---------------------------------------------------------------------
  // Calls made before the local stream is ready

  /** Before the local stream is ready every call only queues itself, in call order. */
  lemma {:induction false} QueuedWhileNotReady(m: Manager, acts: seq<Action>)
    requires !m.ready
    ensures Run(m, acts) == m.(pendingActions := m.pendingActions + acts)
    decreases |acts|
  {
    if acts == [] {
      assert m.pendingActions + acts == m.pendingActions;
    } else {
      var m1 := Perform(m, acts[0]);
      assert m1 == m.(pendingActions := m.pendingActions + [acts[0]]);
      QueuedWhileNotReady(m1, acts[1..]);
      assert m.pendingActions + [acts[0]] + acts[1..] == m.pendingActions + acts;
    }
  }

  lemma {:induction false} RunAppend(m: Manager, a: seq<Action>, b: seq<Action>)
    ensures Run(m, a + b) == Run(Run(m, a), b)
    decreases |a|
  {
    if a == [] {
      assert a + b == b;
    } else {
      assert (a + b)[0] == a[0] && (a + b)[1..] == a[1..] + b;
      RunAppend(Perform(m, a[0]), a[1..], b);
    }
  }

  /**
   * Calls made while the capture is outstanding have, once it succeeds,
   * exactly the effect of making them afterwards, one by one in call order.
   */
  lemma ReplayInOrder(m: Manager, acts: seq<Action>)
    requires !m.ready && m.captures > 0
    ensures OnCaptureSucceeded(Run(m, acts)) == Run(OnCaptureSucceeded(m), acts)
  {
    QueuedWhileNotReady(m, acts);
    RunAppend(OnCaptureSucceeded(m.(pendingActions := [])), m.pendingActions, acts);
    var q := m.(pendingActions := m.pendingActions + acts);
    var m1 := Put(q, q.myId, Get(q, q.myId).(streamOut := Some(AllOn)));
    var m2 := m1.(captures := q.captures - 1, haveStreamOut := true,
                  log := q.log + [StreamOut], ready := true, pendingActions := []);
    var n1 := Put(m, m.myId, Get(m, m.myId).(streamOut := Some(AllOn)));
    var n2 := n1.(captures := m.captures - 1, haveStreamOut := true,
                  log := m.log + [StreamOut], ready := true, pendingActions := []);
    assert m2 == n2;
    RunAppend(n2, m.pendingActions, acts);
  }

  /** Once the manager is ready, a call queues nothing and only appends to the fired events. */
  lemma PerformWhileReady(m: Manager, a: Action)
    requires m.ready
    ensures var r := Perform(m, a);
      && r.ready && r.haveStreamOut == m.haveStreamOut && r.pendingActions == m.pendingActions
      && m.log <= r.log
  {
    match a
    case Add(id) => AddWhileReady(m, id);
    case Remove(id) => RemoveWhileReady(m, id);
    case Control =>
  }

  lemma AddWhileReady(m: Manager, id: Id)
    requires m.ready
    ensures var r := AddVideo(m, id);
      && r.ready && r.haveStreamOut == m.haveStreamOut && r.pendingActions == m.pendingActions
      && m.log <= r.log
  {
    if StateOf(m, id) == NotTracking {
      var p := Put(m, id, Get(m, id).(enabled := AllOn));
      assert p.log == m.log && SameSettings(m, p);
      var r := EnterInitializing(p, id);
      assert SameSettings(p, r);
      assert m.log <= r.log;
    }
  }

  lemma RemoveWhileReady(m: Manager, id: Id)
    requires m.ready
    ensures var r := RemoveVideo(m, id);
      && r.ready && r.haveStreamOut == m.haveStreamOut && r.pendingActions == m.pendingActions
      && m.log <= r.log
  {
    if StateOf(m, id) != NotTracking {
      var p := Put(m, id, Get(m, id).(enabled := Flags(false, false)));
      assert p.log == m.log && SameSettings(m, p);
    }
  }

  lemma {:induction false} RunWhileReady(m: Manager, acts: seq<Action>)
    requires m.ready
    ensures var r := Run(m, acts);
      && r.ready && r.haveStreamOut == m.haveStreamOut && r.pendingActions == m.pendingActions
      && m.log <= r.log
    decreases |acts|
  {
    if acts != [] {
      PerformWhileReady(m, acts[0]);
      RunWhileReady(Perform(m, acts[0]), acts[1..]);
    }
  }

  /**
   * A successful capture fires `streamOut` before anything a replayed call
   * fires, and leaves the manager ready with nothing queued.
   */
  lemma CaptureFiresStreamOutFirst(m: Manager)
    requires m.captures > 0
    ensures var r := OnCaptureSucceeded(m);
      && r.ready && r.haveStreamOut && r.pendingActions == []
      && m.log + [StreamOut] <= r.log
  {
    var m1 := Put(m, m.myId, Get(m, m.myId).(streamOut := Some(AllOn)));
    var m2 := m1.(captures := m.captures - 1, haveStreamOut := true,
                  log := m.log + [StreamOut], ready := true, pendingActions := []);
    RunWhileReady(m2, m.pendingActions);
  }

  /**
   * When a captured track ends on a ready manager, the capture it starts
   * succeeds into the same manager with a fresh local stream: one more
   * `streamOut`, every track of the local stream on again, the capture count
   * back where it was, and every other session, the channel and the queue
   * untouched.
   */
  lemma TrackEndedRecaptures(m: Manager)
    requires Valid(m) && m.haveStreamOut
    ensures var r := OnCaptureSucceeded(OnLocalTrackEnded(m));
      && r.log == m.log + [StreamOut]
      && r.captures == m.captures && r.ready && r.pendingActions == []
      && Get(r, m.myId).streamOut == Some(AllOn)
      && (forall j | j != m.myId :: Get(r, j) == Get(m, j))
      && r.server == m.server && r.nextHandle == m.nextHandle
  {
    var e := OnLocalTrackEnded(m);
    var m1 := Put(e, e.myId, Get(e, e.myId).(streamOut := Some(AllOn)));
    forall j | j != m.myId ensures Get(m1, j) == Get(m, j) {
      OthersGet(e, m1, m.myId, j);
    }
  }

  // ---------------------------------------------------------------------
  // Who makes the offer

  /** Of two distinct ids exactly one sorts first, so exactly one side initiates. */
  lemma ExactlyOneInitiator(a: Id, b: Id)
    requires a != b
    ensures IsInitiator(a, b) <==> !IsInitiator(b, a)
  {
    LexLessConnected(a, b);
    if LexLess(a, b) {
      LexLessAsymmetric(a, b);
    }
  }

  /** A `request_offer` leaves (or is queued) exactly when this side is not the initiator. */
  lemma RequestOfferIffResponder(m: Manager, id: Id)
    requires Valid(m) && m.haveStreamOut
    ensures EnterInitializing(m, id).server.Some?
    ensures Signalling.Traffic(EnterInitializing(m, id).server.value)
         == Signalling.Traffic(m.server.value) + (if IsInitiator(m.myId, id) then [] else [Signalling.RequestOfferMsg(id)])
  {
    var c := m.server.value;
    if !IsInitiator(m.myId, id) {
      Signalling.SendTraffic(c, Signalling.RequestOfferMsg(id));
    }
  }

  /**
   * Two participants that start a session with each other: exactly one of
   * them asks the other for an offer.
   */
  lemma OneSideRequestsOffer(ma: Manager, mb: Manager)
    requires Valid(ma) && Valid(mb) && ma.haveStreamOut && mb.haveStreamOut
    requires ma.myId != mb.myId
    ensures var ra := EnterInitializing(ma, mb.myId); var rb := EnterInitializing(mb, ma.myId);
      (|Signalling.Traffic(ra.server.value)| == |Signalling.Traffic(ma.server.value)| + 1)
        != (|Signalling.Traffic(rb.server.value)| == |Signalling.Traffic(mb.server.value)| + 1)
  {
    RequestOfferIffResponder(ma, mb.myId);
    RequestOfferIffResponder(mb, ma.myId);
    ExactlyOneInitiator(ma.myId, mb.myId);
  }

  // ---------------------------------------------------------------------
  // Removing every session

  lemma OthersGet(m: Manager, r: Manager, id: Id, j: Id)
    requires OthersUnchanged(m, r, id) && j != id
    ensures Get(r, j) == Get(m, j)
  {
  }

  /** `removeVideo` on a ready manager leaves `id` NotTracking and every other session as it was. */
  lemma RemoveVideoSettles(m: Manager, id: Id)
    requires m.ready
    ensures var r := RemoveVideo(m, id);
      && StateOf(r, id) == NotTracking && r.ready
      && forall j | j != id :: Get(r, j) == Get(m, j)
  {
    if StateOf(m, id) != NotTracking {
      var p := Put(m, id, Get(m, id).(enabled := Flags(false, false)));
      var r := EnterNotTracking(p, id);
      forall j | j != id ensures Get(r, j) == Get(m, j) {
        OthersGet(m, p, id, j);
        OthersGet(p, r, id, j);
      }
    }
  }

  /** After `removeVideo` for each of `ids`, those ids and every id that was already NotTracking are NotTracking. */
  lemma {:induction false} RemoveEachSettles(m: Manager, ids: seq<Id>)
    requires m.ready
    ensures forall j | j in ids || StateOf(m, j) == NotTracking :: StateOf(RemoveEach(m, ids), j) == NotTracking
    decreases |ids|
  {
    if ids != [] {
      var m1 := RemoveVideo(m, ids[0]);
      RemoveVideoSettles(m, ids[0]);
      RemoveEachSettles(m1, ids[1..]);
      forall j | j in ids || StateOf(m, j) == NotTracking
        ensures StateOf(RemoveEach(m, ids), j) == NotTracking
      {
        if j != ids[0] && j !in ids[1..] {
          assert StateOf(m1, j) == StateOf(m, j);
        }
      }
    }
  }

  /**
   * `removeAll()` on a ready manager leaves no session behind: every id is
   * NotTracking with no peer handle, no inbound stream and no timer armed.
   */
  lemma RemoveAllClears(m: Manager)
    requires Valid(m) && m.ready
    ensures var r := RemoveAll(m);
      forall id :: && StateOf(r, id) == NotTracking && Get(r, id).peer == None
                   && !Get(r, id).streamIn && !Get(r, id).initTimer && !Get(r, id).brokenTimer
  {
    var r := RemoveAll(m);
    RemoveEachSettles(m, m.order);
    RemoveEachValid(m, m.order);
    forall id ensures StateOf(r, id) == NotTracking && Get(r, id).peer == None
                      && !Get(r, id).streamIn && !Get(r, id).initTimer && !Get(r, id).brokenTimer
    {
      if id !in m.order {
        ValidAt(m, id);
      }
      ValidAt(r, id);
    }
  }

  // ---------------------------------------------------------------------
  // Muting

  /** An outbound stream whose tracks agree with the intents and the global switches. */
  predicate TracksAgree(s: Session, global: Flags) {
    s.streamOut.Some? ==> s.streamOut.value == Both(s.enabled, global)
  }

  /** `_streaming` leaves the outbound tracks agreeing with the intents and switches. */
  lemma StreamingTracksAgree(s: Session, global: Flags)
    ensures TracksAgree(StreamingSession(s, global), global)
  {
    var t := StreamingSession(s, global);
    if t.streamOut.Some? {
      var f := t.streamOut.value;
      var g := Both(t.enabled, global);
      assert f.Get(Video) == g.Get(Video) && f.Get(Audio) == g.Get(Audio);
    }
  }

  /** The per-id mute call keeps the tracks of that id agreeing with its intent and the switch. */
  lemma SetMuteKeepsTracksAgreeing(m: Manager, k: Kind, id: Id, muted: bool)
    requires TracksAgree(Get(m, id), m.global)
    ensures TracksAgree(Get(SetMute(m, k, id, muted), id), m.global)
  {
    var s := Get(m, id);
    var t := MuteSession(s, k, muted, m.global.Get(k));
    if t.streamOut.Some? {
      var g := Both(t.enabled, m.global);
      assert t.streamOut.value.Get(k) == g.Get(k);
      assert t.streamOut.value.Get(OtherKind(k)) == g.Get(OtherKind(k));
      assert t.streamOut.value == g by {
        if k == Video { assert OtherKind(k) == Audio; } else { assert OtherKind(k) == Video; }
      }
    }
  }

  /**
   * The `All` calls keep each outbound stream that agreed with its intents
   * and the switches agreeing with them. (An outbound stream can disagree:
   * the local stream is captured with every track on, whatever its intents.)
   */
  lemma SetMuteAllKeepsTracksAgreeing(m: Manager, k: Kind, muted: bool, id: Id)
    ensures var r := SetMuteAll(m, k, muted);
      TracksAgree(Get(m, id), m.global) ==> TracksAgree(Get(r, id), r.global)
  {
    var r := SetMuteAll(m, k, muted);
    var s := Get(m, id);
    var t := Get(r, id);
    if TracksAgree(s, m.global) && s.streamOut.Some? {
      var g := Both(t.enabled, r.global);
      assert t.streamOut.value.Get(k) == g.Get(k);
      assert t.streamOut.value.Get(OtherKind(k)) == g.Get(OtherKind(k));
      assert t.streamOut.value == g by {
        if k == Video { assert OtherKind(k) == Audio; } else { assert OtherKind(k) == Video; }
      }
    }
  }

  /**
   * A global mute reaches the sessions started after it: their outbound
   * stream is cloned from the local one, whose tracks of that kind the `All`
   * call switched off. Only on a manager that never tracked its own id: in a
   * browser, tracking it stops the local stream itself.
   */
  lemma GlobalMuteReachesNewSessions(m: Manager, k: Kind, id: Id)
    requires Valid(m) && m.ready && StateOf(m, id) == NotTracking && m.myId !in m.order
    requires Get(m, m.myId).streamOut.Some?
    ensures var r := AddVideo(SetMuteAll(m, k, true), id);
      Get(r, id).streamOut.Some? && !Get(r, id).streamOut.value.Get(k)
  {
    var m1 := SetMuteAll(m, k, true);
    SetMuteAllValid(m, k, true);
    assert StateOf(m1, id) == NotTracking;
    AddVideoStarts(m1, id);
  }

  /** The per-id mute call, applied to each of `ids` in turn (the loop inside the `All` calls). */
  function MuteEach(m: Manager, k: Kind, ids: seq<Id>, muted: bool): Manager
    decreases |ids|
  {
    if ids == [] then m else MuteEach(SetMute(m, k, ids[0], muted), k, ids[1..], muted)
  }

  predicate Distinct(ids: seq<Id>) {
    forall i, j | 0 <= i < j < |ids| :: ids[i] != ids[j]
  }

  lemma {:induction false} MuteEachAt(m: Manager, k: Kind, ids: seq<Id>, muted: bool, id: Id)
    requires Distinct(ids)
    ensures Get(MuteEach(m, k, ids, muted), id)
         == if id in ids then MuteSession(Get(m, id), k, muted, m.global.Get(k)) else Get(m, id)
    ensures MuteEach(m, k, ids, muted).global == m.global
    decreases |ids|
  {
    if ids != [] {
      var m1 := SetMute(m, k, ids[0], muted);
      assert Distinct(ids[1..]) by {
        forall i, j | 0 <= i < j < |ids[1..]| ensures ids[1..][i] != ids[1..][j] {
          assert ids[1..][i] == ids[i + 1] && ids[1..][j] == ids[j + 1];
        }
      }
      MuteEachAt(m1, k, ids[1..], muted, id);
      if id != ids[0] {
        OthersGet(m, m1, ids[0], id);
        assert id in ids <==> id in ids[1..];
      } else {
        assert id !in ids[1..] by {
          forall j | 0 <= j < |ids[1..]| ensures ids[1..][j] != id {
            assert ids[1..][j] == ids[j + 1];
          }
        }
      }
    }
  }

  /**
   * The `All` calls agree with their loop: switching the global flag and
   * then making the per-id call for each id that has an outbound stream
   * (each once) gives every session the same value as `SetMuteAll`.
   */
  lemma SetMuteAllIsLoop(m: Manager, k: Kind, muted: bool, ids: seq<Id>)
    requires Distinct(ids)
    requires forall id :: id in ids <==> Get(m, id).streamOut.Some?
    ensures var g := m.(global := m.global.Set(k, !muted));
      forall id :: Get(MuteEach(g, k, ids, muted), id) == Get(SetMuteAll(m, k, muted), id)
  {
    var g := m.(global := m.global.Set(k, !muted));
    forall id ensures Get(MuteEach(g, k, ids, muted), id) == Get(SetMuteAll(m, k, muted), id) {
      MuteEachAt(g, k, ids, muted, id);
      assert Get(g, id) == Get(m, id);
    }
  }

  // ---------------------------------------------------------------------
  // Signals from the other side

  /**
   * The latest signal from the other side is kept or delivered: while
   * Initializing it goes to the live peer at once; while NotTracking it
   * becomes the buffered signal (replacing any older one) until the session
   * starts; while Streaming or Broken the session restarts with a new peer
   * that receives it first.
   */
  lemma SignalNeverLost(m: Manager, from: Id, data: Payload)
    requires Valid(m)
    ensures var r := OnServerMessage(m, Signalling.SignalFrom(from, data)); var s := Get(m, from);
      && (s.state == Initializing ==>
            && r.log == m.log + [PeerSignalled(from, s.peer.value, data)]
            && IsLive(r, from, s.peer.value) && Get(r, from).initTimer)
      && (s.state == NotTracking ==>
            && Get(r, from).pendingSignal == Some(data) && StateOf(r, from) == NotTracking
            && r.log == m.log)
      && (Receiving(s.state) ==>
            && r.log == m.log + [StreamUpdate(from, Resetting), PeerSignalled(from, m.nextHandle, data),
                                 StreamUpdate(from, Initializing)]
            && IsLive(r, from, m.nextHandle) && StateOf(r, from) == Initializing)
  {
    ValidAt(m, from);
    var s := Get(m, from);
    if Receiving(s.state) {
      var b := Buffer(m, from, data);
      assert b.haveStreamOut && b.log == m.log && b.nextHandle == m.nextHandle;
      assert Get(b, from).pendingSignal == Some(data);
    }
  }

  /**
   * A `request_offer` restarts a Streaming or Broken session with a new live
   * peer, firing Resetting then Initializing and handing that peer nothing;
   * in every other state it changes nothing.
   */
  lemma RequestOfferRestartsOnlyReceiving(m: Manager, from: Id)
    requires Valid(m)
    ensures var r := OnServerMessage(m, Signalling.RequestOfferFrom(from));
      && (Receiving(StateOf(m, from)) ==>
            && StateOf(r, from) == Initializing && IsLive(r, from, m.nextHandle)
            && r.log == m.log + [StreamUpdate(from, Resetting), StreamUpdate(from, Initializing)])
      && (!Receiving(StateOf(m, from)) ==> r == m)
  {
    ValidAt(m, from);
  }

  /**
   * Of the signals that arrive while a session is NotTracking only the
   * latest reaches the peer that `addVideo` creates, before anything else.
   */
  lemma LatestBufferedSignalWins(m: Manager, id: Id, d1: Payload, d2: Payload)
    requires Valid(m) && m.ready && StateOf(m, id) == NotTracking
    ensures var b := OnServerMessage(OnServerMessage(m, Signalling.SignalFrom(id, d1)), Signalling.SignalFrom(id, d2));
      AddVideo(b, id).log == m.log + [StreamUpdate(id, Resetting), PeerSignalled(id, m.nextHandle, d2),
                                     StreamUpdate(id, Initializing)]
  {
    ValidAt(m, id);
    var b1 := Buffer(m, id, d1);
    var b := Buffer(b1, id, d2);
    var p := Put(b, id, Get(b, id).(enabled := AllOn));
    assert p.haveStreamOut && p.log == m.log && p.nextHandle == m.nextHandle;
    assert Get(p, id).pendingSignal == Some(d2);
  }

  // ---------------------------------------------------------------------
  // Peer handles

  /**
   * A restart retires the old peer: its handle is no longer live, so its
   * late `stream`, `close` and `signal` events change nothing.
   */
  lemma RestartRetiresHandle(m: Manager, id: Id, h: Handle, data: Payload)
    requires Valid(m) && IsLive(m, id, h)
    ensures var r := EnterInitializing(m, id);
      && !IsLive(r, id, h)
      && OnPeerStream(r, id, h) == r && OnPeerClose(r, id, h) == r && OnPeerSignal(r, id, h, data) == r
  {
    ValidAt(m, id);
  }

  /**
   * A restart by either timer: the session is Initializing again with a new
   * live peer and only the initializing timer armed, and the old peer is
   * retired.
   */
  lemma InitializingTimeoutRestarts(m: Manager, id: Id, h: Handle)
    requires Valid(m) && IsLive(m, id, h) && Get(m, id).initTimer
    ensures var r := OnInitializingTimeout(m, id);
      && StateOf(r, id) == Initializing && IsLive(r, id, m.nextHandle) && !IsLive(r, id, h)
      && Get(r, id).initTimer && !Get(r, id).brokenTimer
  {
    ValidAt(m, id);
  }

  lemma BrokenTimeoutRestarts(m: Manager, id: Id, h: Handle)
    requires Valid(m) && IsLive(m, id, h) && Get(m, id).brokenTimer
    ensures var r := OnBrokenTimeout(m, id);
      && StateOf(r, id) == Initializing && IsLive(r, id, m.nextHandle) && !IsLive(r, id, h)
      && Get(r, id).initTimer && !Get(r, id).brokenTimer
  {
    ValidAt(m, id);
  }

  // ---------------------------------------------------------------------
  // Inbound track muting

  /**
   * An inbound track `mute` breaks only a Streaming session, firing Broken
   * and leaving exactly the broken timer armed; in every other state it
   * changes nothing.
   */
  lemma TrackMuteBreaksOnlyStreaming(m: Manager, id: Id)
    requires Valid(m)
    ensures var r := OnTrackMute(m, id);
      && (StateOf(m, id) == Streaming ==>
            && StateOf(r, id) == Broken && Get(r, id).brokenTimer && !Get(r, id).initTimer
            && Get(r, id).peer == Get(m, id).peer && Get(r, id).streamIn
            && r.log == m.log + [StreamUpdate(id, Broken)])
      && (StateOf(m, id) != Streaming ==> r == m)
  {
    ValidAt(m, id);
  }

  /**
   * A `mute` then an `unmute` of an inbound track leaves a Streaming session
   * exactly as it was, having fired Broken then Streaming.
   */
  lemma MuteThenUnmuteRecovers(m: Manager, id: Id)
    requires Valid(m) && StateOf(m, id) == Streaming
    ensures var r := OnTrackUnmute(OnTrackMute(m, id), id);
      && r.sessions == m.sessions
      && r.log == m.log + [StreamUpdate(id, Broken), StreamUpdate(id, Streaming)]
  {
    ValidAt(m, id);
    var b := EnterBroken(m, id);
    var r := OnTrackUnmute(b, id);
    assert Get(r, id) == Get(m, id);
    assert id in m.sessions;
  }

  // ---------------------------------------------------------------------
  // Adding and removing a session

  /**
   * `addVideo` on a ready manager for a NotTracking id starts a session:
   * both intents on, Initializing with the initializing timer armed, an
   * outbound stream cloned from the local one, a new live peer, the buffered signal (if any) delivered to it, a
   * `request_offer` out exactly when this side does not initiate, and every
   * other session untouched.
   */
  lemma AddVideoStarts(m: Manager, id: Id)
    requires Valid(m) && m.ready && StateOf(m, id) == NotTracking
    ensures var r := AddVideo(m, id);
      && StateOf(r, id) == Initializing && Get(r, id).enabled == AllOn
      && Get(r, id).initTimer && !Get(r, id).brokenTimer && IsLive(r, id, m.nextHandle)
      && Get(r, id).streamOut == Some(LocalTracks(m))
      && r.log == m.log + [StreamUpdate(id, Resetting)]
                  + Delivered(id, m.nextHandle, Get(m, id).pendingSignal)
                  + [StreamUpdate(id, Initializing)]
      && Signalling.Traffic(r.server.value) == Signalling.Traffic(m.server.value)
           + (if IsInitiator(m.myId, id) then [] else [Signalling.RequestOfferMsg(id)])
      && forall j | j != id :: Get(r, j) == Get(m, j)
  {
    var p := Put(m, id, Get(m, id).(enabled := AllOn));
    PutValid(m, id, Get(m, id).(enabled := AllOn));
    RequestOfferIffResponder(p, id);
    var r := EnterInitializing(p, id);
    forall j | j != id ensures Get(r, j) == Get(m, j) {
      OthersGet(m, p, id, j);
      OthersGet(p, r, id, j);
    }
  }

  /** A second `addVideo` for the same id changes nothing. */
  lemma AddVideoIdempotent(m: Manager, id: Id)
    requires Valid(m) && m.ready
    ensures AddVideo(AddVideo(m, id), id) == AddVideo(m, id)
  {
    if StateOf(m, id) == NotTracking {
      AddVideoStarts(m, id);
    }
  }

  /**
   * `removeVideo` on a ready manager for a tracked id ends the session:
   * both intents off, NotTracking with no peer, inbound stream or timer, the
   * outbound stream dropped in a browser, `Resetting` then `NotTracking`
   * fired, and every other session untouched.
   */
  lemma RemoveVideoStops(m: Manager, id: Id)
    requires m.ready && StateOf(m, id) != NotTracking
    ensures var r := RemoveVideo(m, id); var t := Get(r, id);
      && t.state == NotTracking && t.enabled == Flags(false, false)
      && t.peer == None && !t.streamIn && !t.initTimer && !t.brokenTimer
      && (m.browser ==> t.streamOut == None)
      && r.log == m.log + [StreamUpdate(id, Resetting), StreamUpdate(id, NotTracking)]
      && forall j | j != id :: Get(r, j) == Get(m, j)
  {
    RemoveVideoSettles(m, id);
  }

  /** A second `removeVideo` for the same id changes nothing. */
  lemma RemoveVideoIdempotent(m: Manager, id: Id)
    requires m.ready
    ensures RemoveVideo(RemoveVideo(m, id), id) == RemoveVideo(m, id)
  {
    RemoveVideoSettles(m, id);
  }

  // ---------------------------------------------------------------------
  // Initializing twice

  /**
   * A second `initialize` on a manager that has a capture capability: as
   * written it throws a ReferenceError before firing anything, where the
   * evident intent is to fire the existing outbound stream again and change
   * nothing else.
   */
  lemma SecondInitializeThrows(uuid: string, uid: Id)
    ensures var m := Initialize(Create(true, true), uuid, uid);
      && InitializeAsWritten(m, uuid, uid) == Failure(ReferenceError("streamOut"))
      && Initialize(m, uuid, uid) == m.(log := m.log + [StreamOut])
  {
  }
}

=== FILE: string_order.dfy ===
/**
 * JavaScript's `<` on two strings: character codes are compared one position
 * at a time, and a proper prefix sorts before every longer string. The stream
 * manager uses it to pick which side of a peer pair creates the offer.
 */
module StringOrder {

  function LexLess(a: string, b: string): bool
    decreases |a|
  {
    if |b| == 0 then false
    else if |a| == 0 then true
    else if a[0] != b[0] then a[0] < b[0]
    else LexLess(a[1..], b[1..])
  }

  /** Two strings are never each below the other. */
  lemma {:induction false} LexLessAsymmetric(a: string, b: string)
    ensures LexLess(a, b) ==> !LexLess(b, a)
    decreases |a|
  {
    if |a| > 0 && |b| > 0 && a[0] == b[0] {
      LexLessAsymmetric(a[1..], b[1..]);
    }
  }

  /** Two different strings are always comparable. */
  lemma {:induction false} LexLessConnected(a: string, b: string)
    requires a != b
    ensures LexLess(a, b) || LexLess(b, a)
    decreases |a|
  {
    if |a| > 0 && |b| > 0 && a[0] == b[0] {
      assert a == [a[0]] + a[1..] && b == [b[0]] + b[1..];
      LexLessConnected(a[1..], b[1..]);
    }
  }
}

=== FILE: wrappers.dfy ===
/** Optional values and results shared by the signalling channel and the stream manager. */
module Wrappers {

  /** A value that may be absent: an unset map entry, a missing peer handle. */
  datatype Option<+T> = None | Some(value: T)

  /** The outcome of a call that may throw. */
  datatype Result<+T, +E> = Success(value: T) | Failure(error: E)
}
